=== FILE: README.md ===
# WatSwift JSON value model and response envelope, in Dafny

WatSwift is a Swift client for the University of Waterloo open-data API.
Every endpoint answers with a `{ "meta": {...}, "data": ... }` envelope.
The client turns the body into a dynamically typed `JSON` tree and splits it
into a typed `Response`. This project models that core: the `JSON` enum and
its classification of host values, the narrowing accessors and both
subscripts, the hand-written `==`, the pretty-printer behind `stringify` and
`description`, the literal initialisers with their dictionary merge,
`parse`, and the envelope decoder of `Response.swift`.

Modules, one per concern of `JSON.swift` and `Response.swift`:

- `Wrappers` (`wrappers.dfy`): `Option` and `Result`.
- `JsonValue` (`json.dfy`): the seven-case `Json` datatype, the accessors, subscripts, chained lookups and `==`.
- `Text` (`text.dfy`): joining and repeating strings, as the printer's indentation uses them.
- `Printer` (`printer.dfy`): `prettyPrint`, `stringify`, `description`.
- `Reader` (`reader.dfy`): a reader for the printer's layout. It is the printer's partner: printing a tree and reading the text back gives the tree.
- `Classification` (`native.dfy`): `init(_:)` on host values, `parse`, the literal initialisers and the dictionary-literal `+`.
- `Envelope` (`response.dfy`): `Metadata(metadata:)` and `Response(json:)`. A missing field is an explicit `Result` failure naming the field, where the source force-unwraps and traps.

Three behaviours of the host are parameters rather than code:

- the text Swift's interpolation gives a `Double` (`Host.numberText`);
- the order in which a dictionary hands out its entries (`Host.keyOrder`); where a property needs it, the host must hand out every key exactly once (`Printer.EnumeratesKeys`), as Swift's `map` over a dictionary does;
- the platform JSON decoder (`Decoder`), with `String`'s UTF-8 encoding as `encode` in `ParseText`.

Numbers are `real`. The `integer` accessor truncates toward zero, as Swift's `Int(Double)` does. Conversions outside the 64-bit range, which trap in Swift, are a precondition of `AsInteger` and an `Overflow` failure in the envelope decoder.

## Model

| member | source | states |
|---|---|---|
| JsonValue.Trunc | WatSwift/JSON.swift:95-100 | `Int(num)` rounds toward zero: the result lies within one of the payload on the side of zero |
| JsonValue.AsString | WatSwift/JSON.swift:88-93 | `string` is present exactly for the string case, and the case is rebuilt from the value it returns |
| JsonValue.AsDouble | WatSwift/JSON.swift:102-107 | `double` is present exactly for the number case, and the case is rebuilt from the value it returns |
| JsonValue.AsInteger | WatSwift/JSON.swift:95-100 | `integer` is present exactly when `double` is, and then it is the truncation of that double and fits in 64 bits |
| JsonValue.AsObject | WatSwift/JSON.swift:109-114 | `object` is present exactly for the object case |
| JsonValue.AsArray | WatSwift/JSON.swift:116-121 | `array` is present exactly for the array case |
| JsonValue.AsBool | WatSwift/JSON.swift:123-128 | `bool` is present exactly for the bool case |
| JsonValue.AccessorsExclusive | WatSwift/JSON.swift:88-128 | at most one accessor answers for any value, and none answers for `null` or `invalid` |
| JsonValue.Key | WatSwift/JSON.swift:130-135 | the keyed subscript gives the stored value of an object holding the key, and `invalid` for a non-object or a missing key |
| JsonValue.Index | WatSwift/JSON.swift:137-142 | the positional subscript gives the element of an array when the index is below the count, and `invalid` for a non-array or an index at or past the end; a negative index into an array traps, so it is excluded |
| JsonValue.KeyMissIsInvalid | WatSwift/JSON.swift:130-135 | on a tree without sentinels, a keyed lookup is `invalid` exactly when the key is missing, so a stored `null` comes back as `null` |
| JsonValue.FollowConcat | WatSwift/JSON.swift:130-142 | applying a chain of subscripts in two pieces is applying it at once |
| JsonValue.InvalidAbsorbs | WatSwift/JSON.swift:130-142 | every subscript of `invalid` is `invalid` |
| JsonValue.MissPropagates | WatSwift/JSON.swift:130-142 | a miss anywhere in a chain of subscripts makes the whole chain `invalid` |
| JsonValue.Equal | WatSwift/JSON.swift:208-231 | `==` compares same-case payloads, arrays element by element and dictionaries by size and per-key lookup; only trees without `invalid` on either side are equal to anything |
| JsonValue.EqualMeansIdentical | WatSwift/JSON.swift:208-231 | `==` holds only between identical trees that contain no `invalid`, strings and keys compared character by character |
| JsonValue.EqualReflexiveOnValid | WatSwift/JSON.swift:208-231 | every tree without `invalid` equals itself |
| JsonValue.EqualIsIdentityOnValid | WatSwift/JSON.swift:208-231 | `==` is structural identity restricted to trees without `invalid`, in both directions, strings and keys compared character by character |
| JsonValue.EqualSymmetric | WatSwift/JSON.swift:208-231 | `==` is symmetric |
| JsonValue.EqualTransitive | WatSwift/JSON.swift:208-231 | `==` is transitive |
| JsonValue.SentinelEquality | WatSwift/JSON.swift:208-231 | `invalid` equals nothing, itself included, and `null` equals only `null` |
| JsonValue.NullIsNotMissing | WatSwift/JSON.swift:130-135 | a stored `null` and a missing key give different answers, and `==` tells them apart |
| Text.JoinEmpties | WatSwift/JSON.swift:180 | `n` empty strings joined by a separator are the separator written `n - 1` times |
| Printer.CurrentIndent | WatSwift/JSON.swift:180 | `currentIndent` at level `n` is `indent` written `n` times |
| Printer.Present | WatSwift/JSON.swift:195-197 | the keys an enumeration yields are the keys of the dictionary; when every enumerated key is in the dictionary, the enumeration is kept as it is |
| Printer.NextIndent | WatSwift/JSON.swift:181 | `nextIndent` at level `n` is `indent` written `n` times followed by two spaces, whatever `indent` is |
| Printer.Block | WatSwift/JSON.swift:190-197 | a block opens with its bracket and a newline and ends with a newline, `indent` written `level` times and the closing bracket; an empty block is the two brackets around an empty line |
| Printer.PrettyPrint | WatSwift/JSON.swift:179-204 | a string prints between quotes; an array or object opens with its bracket and a newline and closes on its own line at `indent` written `level` times; an empty one is an empty line between its brackets; a nested `invalid` prints as nothing |
| Printer.ItemTexts | WatSwift/JSON.swift:190-193 | an array prints one line per element |
| Printer.EntryTexts | WatSwift/JSON.swift:194-197 | an object prints one line per key the host hands out |
| Printer.EnumerationSize | WatSwift/JSON.swift:195 | an enumeration that yields each key of a dictionary once is as long as the dictionary |
| Printer.EntryLines | WatSwift/JSON.swift:194-197 | with a host that hands out each key once, an object prints exactly one line per key, `"key" : value` behind `nextIndent` with the value one level deeper |
| Printer.LeafTexts | WatSwift/JSON.swift:184-189 | booleans print as `true`/`false`, `null` as `null`, a string as its raw text between quotes, a number as the host renders it |
| Printer.NestedIndentExample | WatSwift/JSON.swift:180-181 | children are indented by two spaces whatever `indent` is, while closing brackets use `indent` |
| Printer.Stringify | WatSwift/JSON.swift:164-170 | `stringify` as intended: it gives no text exactly for an `invalid` root, and otherwise the rendering at level 0 |
| Printer.StringifyAsWritten | WatSwift/JSON.swift:164-170 | `stringify` as written: any text it gives is the level-0 rendering, and it agrees with the intended `stringify` exactly on values other than `invalid` |
| Printer.StringifyGuardNeverFires | WatSwift/JSON.swift:164-170 | as written, the guard `self != .invalid` always passes, so `stringify(.invalid)` returns the empty text, and it agrees with the intended behaviour exactly on the other values |
| Printer.Description | WatSwift/JSON.swift:172-177 | `description` as intended: `<INVALID JSON>` for an `invalid` root and the default-indent rendering otherwise |
| Printer.DescriptionAsWritten | WatSwift/JSON.swift:164-177 | `description` as written: the empty text for an `invalid` root, because `stringify` as written never fails, and the intended `description` otherwise |
| Reader.ReadableIsValid | WatSwift/JSON.swift:179-204 | a tree the reader can take back contains no `invalid` |
| Reader.ReadPrinted | WatSwift/JSON.swift:179-204 | for a tree without `invalid` whose strings and keys hold no quote, printed with an indent without a newline, reading what `prettyPrint` wrote at any level, followed by a separator or nothing, gives back the tree and the rest of the text, when the tree's own numbers read back from their text and the host hands out each key once |
| Reader.ReadItemsPrinted | WatSwift/JSON.swift:190-193 | reading the lines of a printed array gives back its elements, given that each element reads back from its own printed text |
| Reader.ReadEntriesPrinted | WatSwift/JSON.swift:194-197 | reading the lines of a printed object gives back its entries, whatever order the host enumerates the keys in, given that each value reads back from its own printed text |
| Reader.StringifyRoundTrip | WatSwift/JSON.swift:164-204 | for a tree whose strings and keys hold no quote, whose numbers read back from their text, a host that hands out each key once and an indent without a newline, `stringify` is defined and reading its text gives the tree back |
| Reader.StringifyInjective | WatSwift/JSON.swift:164-204 | two such trees with the same `stringify` text are the same tree |
| Reader.RoundTripExample | WatSwift/JSON.swift:164-204 | the round trip's conditions can be met: a concrete host hands out every dictionary's keys once, and an object holding a number and a nested array reads back from its `stringify` text |
| Reader.QuotesCollide | WatSwift/JSON.swift:188-193 | without escaping, a string holding a quote can print like two strings, so the quote-free condition is needed |
| Classification.Classify | WatSwift/JSON.swift:43-86 | the classification of a decoder-shaped value has no `invalid` in it; bytes give `invalid` exactly when decoding fails; a container keeps its length or its key set |
| Classification.ClassifyLeaves | WatSwift/JSON.swift:45-79 | a `JSON` value passes through unchanged, a boolean-typed number becomes a bool and any other number a number, a string becomes a string, and every remaining value becomes `null` |
| Classification.ClassifyIsElementwise | WatSwift/JSON.swift:48-70 | an array of `JSON` values taken as it is and an array classified element by element agree, and likewise for dictionaries |
| Classification.Export | WatSwift/JSON.swift:43-86 | every tree without `invalid` has a decoder-shaped host value of the same shape |
| Classification.ClassifyExport | WatSwift/JSON.swift:43-86 | classifying the host value of a tree gives the tree back |
| Classification.ExportClassify | WatSwift/JSON.swift:43-86 | on decoder output, classification loses nothing: exporting the result gives the value back |
| Classification.ParseData | WatSwift/JSON.swift:144-151 | `parse(Data)` succeeds exactly when the decoder does, gives a tree without `invalid`, and agrees with `JSON(data)`; when it fails, `JSON(data)` is `invalid` |
| Classification.ParseText | WatSwift/JSON.swift:153-162 | `parse(String)` succeeds exactly when the text encodes and its bytes decode, and then agrees with `parse(Data)` |
| Classification.FromStringLiteral | WatSwift/JSON.swift:241-251 | a string literal reads back through `string` |
| Classification.FromIntegerLiteral | WatSwift/JSON.swift:253-255 | an integer literal is a number, and reads back through `integer`; numbers being exact reals, this includes literals above 2^53, which a `Double` rounds (see "## Left out") |
| Classification.FromFloatLiteral | WatSwift/JSON.swift:261-263 | a float literal reads back through `double` |
| Classification.FromBooleanLiteral | WatSwift/JSON.swift:257-259 | a boolean literal reads back through `bool` and is not a number |
| Classification.FromNilLiteral | WatSwift/JSON.swift:274-276 | the nil literal is `null` |
| Classification.FromArrayLiteral | WatSwift/JSON.swift:270-272 | an array literal keeps its length, and each index holds its element classified |
| Classification.Merge | WatSwift/JSON.swift:280-286 | the merged dictionary has the keys of both sides; the right side wins on shared keys and the other keys of the left side are unchanged |
| Classification.CollectPairs | WatSwift/JSON.swift:265-266 | folding the literal's pairs with `+` keeps each key once, with the value of its last pair |
| Classification.LastValueFound | WatSwift/JSON.swift:265-266 | a key has a last pair exactly when some pair carries it, and no later pair carries it |
| Classification.FromDictionaryLiteral | WatSwift/JSON.swift:265-268 | a dictionary literal is an object whose keys are those of its pairs, each holding its last pair's value classified |
| Envelope.IntegerField | WatSwift/Response.swift:23 | an integer field is read exactly when it is a number whose truncation fits in 64 bits; otherwise the failure names the field and tells a missing field from an overflow |
| Envelope.DecodeMetadata | WatSwift/Response.swift:21-27 | metadata decodes exactly when all four fields are readable; the record keeps `meta` itself and each field equals its accessor's answer; a failure names the first unreadable field in source order |
| Envelope.DecodeResponse | WatSwift/Response.swift:37-40 | a response decodes exactly when `root["meta"]` does; its metadata keeps `root["meta"]` and its data is `root["data"]`, untransformed |
| Envelope.DecodeBody | WatSwift/WatBase.swift:22-23 | a body the decoder refuses fails at the first field, `status` |
| Envelope.MetadataJson | WatSwift/Response.swift:15-19 | the metadata object a server sends carries exactly the four fields |
| Envelope.EnvelopeJson | WatSwift/Response.swift:37-40 | an envelope answers `meta` and `data` with its two parts |
| Envelope.DecodeEncode | WatSwift/Response.swift:21-40 | decoding an envelope built from a metadata record and a payload gives both back |
| Envelope.EncodeDecode | WatSwift/Response.swift:37-40 | a decoded response is also the decoding of the envelope re-assembled from its `meta` and `data` |
| Envelope.NoMetaFails | WatSwift/Response.swift:38 | a root that is not an object, or has no `meta`, fails at `status` |
| Envelope.MissingTimestampFails | WatSwift/Response.swift:24 | metadata without a timestamp is refused, and reported as such once `status` is readable |
| Envelope.ExampleEnvelope | WatSwift/Response.swift:21-40 | the documented envelope decodes to status 200, timestamp 1500000000, message `OK`, method id 7, and `data["x"].integer` is 1 |
| Envelope.ExampleStatusOnly | WatSwift/Response.swift:24 | metadata holding only a status is refused at the timestamp |

## Left out

- Network transport, the API key and the endpoint catalogue: asynchronous I/O and constant paths, outside the JSON and envelope core.
- `JSONSerialization`'s byte tokenising: a `Decoder` parameter that fails or returns a value without bytes or `JSON` inside. The two decoder option sets of `init(_:)` and `parse` are not told apart.
- `String.data(using: .utf8)` in `parse(String)`: an `encode` parameter.
- The message text of `JSONError.parseError`, which quotes the host's error: `ParseError` carries no text.
- `Double` as IEEE-754: numbers are `real`, so NaN, infinities and rounding are absent, and `Date(timeIntervalSince1970:)` is the raw number.
- `"\(number)"` and dictionary iteration order are host parameters (`Host`). The round trip asks only that the tree's own numbers read back from their text and that each key is handed out once; no property depends on the particular number text or key order.
- Debug-build `assert`s: the trap in `prettyPrint(.invalid)` and in the unreachable `default` of `init(_:)` are release-build behaviour here, so a nested `invalid` prints as the empty text.
- `default` of `init(_:)`: unreachable, since the `Optional<Any>` pattern catches every remaining value; `Native` has no case for it.
- `isBoolean`'s comparison of Objective-C type codes: the host value says directly whether a number is boolean-typed (`NBoolean`).
- JsonValue.Equal: Swift's array and dictionary `==` may answer `true` for two copies of one storage buffer without comparing elements; the model always compares elements, so an array holding `invalid` is never equal to itself. It also compares strings character by character, where Swift compares them up to canonical equivalence.
- JsonValue.Key: keys are compared character by character, while Swift's `Dictionary<String, _>` lookup matches canonically equivalent keys (`"\u{E9}"` finds the entry stored under `"e\u{301}"`); Unicode normalisation is not modelled.
- JsonValue.EqualMeansIdentical: Swift's `String` `==` holds between canonically equivalent strings, so `.string("\u{E9}") == .string("e\u{301}")` is true in Swift and false in the model; Unicode normalisation is not modelled. Swift's array and dictionary `==` also answer `true` at once for one shared storage buffer, so `let a = JSON.array([.invalid]); a == a` is true in Swift, while the model always compares elements.
- JsonValue.EqualIsIdentityOnValid: states identity with strings and keys compared character by character, where Swift compares them up to canonical equivalence; Unicode normalisation is not modelled. The shared-buffer shortcut of Swift's array and dictionary `==` (a `JSON.array([.invalid])` compared with itself is equal in Swift) is not modelled either.
- Classification.Merge: canonically equivalent keys stay two keys in the model, where Swift's `lhs[key] = value` overwrites the entry; Unicode normalisation is not modelled.
- Classification.CollectPairs: "each key once" is per exact key, not per canonical-equivalence class as in Swift; Unicode normalisation is not modelled.
- Classification.FromDictionaryLiteral: the literal pairs `("\u{E9}", 1)` and `("e\u{301}", 2)` make two keys in the model and one in Swift; Unicode normalisation is not modelled.
- Classification.Classify: a decoded dictionary with the keys `"\u{E9}"` and `"e\u{301}"` (which the decoder keeps apart, comparing code points) keeps two keys in the model and one in Swift, whose `[String: Any]` cast and `newDict[key] =` merge canonically equivalent keys; Unicode normalisation is not modelled.
- Classification.ExportClassify: for the same decoder output, exporting the classified tree gives back both keys in the model, where Swift's classified tree holds only one; Unicode normalisation is not modelled.
- Printer.PrettyPrint: its contract gives the opening and closing lines of each block and the quoting of strings; the layout between them is pinned down by `Printer.EntryLines`, `Printer.ItemTexts` and the reader round trip (`Reader.ReadPrinted`), not by `PrettyPrint`'s own contract.
- Classification.FromIntegerLiteral: the literal is stored as the exact integer, where Swift stores `number.doubleValue`, which rounds above 2^53; so `JSON(integerLiteral: Int.max).integer` traps in Swift (the rounded double is 2^63) while the model reads `Int.max` back. Envelope.DecodeEncode has the same edge for status codes and method ids above 2^53.
- Reader.StringifyRoundTrip: holds only for strings and keys without a quote and an indent without a newline, because the printer does not escape (see `Reader.QuotesCollide`).
- Envelope.DecodeMetadata: the force-unwrap trap is a `Result` failure, and the first failing field is reported; `Overflow` stands for `Int(_:)` trapping on a number outside 64 bits.

## Findings

| source | as written | input that shows it | evidently intended | confidence | as-written member | corrected member |
|---|---|---|---|---|---|---|
| WatSwift/JSON.swift:164-170 | the guard `self != .invalid` negates the custom `==`, which is false for `(.invalid, .invalid)`, so the guard always passes and `stringify` never returns `nil` | `JSON.invalid.stringify()` gives the empty text in a release build (and traps in `prettyPrint` in a debug build), so `description` never shows `<INVALID JSON>` | `stringify` returns `nil` exactly for `.invalid`, and `description` then shows `<INVALID JSON>` | high; not executed | Printer.StringifyGuardNeverFires, Printer.DescriptionAsWritten | Printer.Stringify, Printer.Description |

=== FILE: json.dfy ===
/** The dynamic JSON value of `JSON.swift`: the seven-variant enum, its
    narrowing accessors, its total subscripts and its hand-written `==`. */
module JsonValue {
  import opened Wrappers

  /** Bounds of Swift's `Int` on the 64-bit platforms the library targets. */
  const IntMin: int := -0x8000_0000_0000_0000
  const IntMax: int := 0x7FFF_FFFF_FFFF_FFFF

  predicate InIntRange(n: int) {
    IntMin <= n <= IntMax
  }

  /** The enum `JSON`. A `Double` payload is modelled as a `real`; a Swift
      dictionary as a `map` (its iteration order is not part of the value). */
  datatype Json =
    | String(str: string)
    | Number(num: real)
    | Object(fields: map<string, Json>)
    | Array(items: seq<Json>)
    | Bool(flag: bool)
    | Null
    | Invalid

  /** Truncation toward zero, the rounding of Swift's `Int(_: Double)`. */
  function Trunc(x: real): (n: int)
    ensures 0.0 <= x ==> 0 <= n && n as real <= x < n as real + 1.0
    ensures x < 0.0 ==> n <= 0 && n as real - 1.0 < x <= n as real
  {
    if 0.0 <= x then x.Floor else -((-x).Floor)
  }

  /** True when no node of the tree is the `Invalid` sentinel: the shape of
      every tree the byte decoder produces. */
  predicate Valid(j: Json) {
    match j
    case Invalid => false
    case Array(items) => forall i :: 0 <= i < |items| ==> Valid(items[i])
    case Object(fields) => forall k :: k in fields ==> Valid(fields[k])
    case _ => true
  }

  // ---------------------------------------------------------------------
  // Narrowing accessors: each is present exactly for its own variant.
  // ---------------------------------------------------------------------

  /** `json.string` */
  function AsString(j: Json): (r: Option<string>)
    ensures r.Some? <==> j.String?
    ensures r.Some? ==> j == String(r.value)
  {
    if j.String? then Some(j.str) else None
  }

  /** `json.double` */
  function AsDouble(j: Json): (r: Option<real>)
    ensures r.Some? <==> j.Number?
    ensures r.Some? ==> j == Number(r.value)
  {
    if j.Number? then Some(j.num) else None
  }

  /** Whether `json.integer` returns at all: `Int(num)` traps when the
      truncated payload does not fit in an `Int`. */
  predicate IntegerDefined(j: Json) {
    j.Number? ==> InIntRange(Trunc(j.num))
  }

  /** `json.integer`: present exactly when `double` is, and then the
      truncation toward zero of that payload. */
  function AsInteger(j: Json): (r: Option<int>)
    requires IntegerDefined(j)
    ensures r.Some? <==> AsDouble(j).Some?
    ensures r.Some? ==> r.value == Trunc(AsDouble(j).value) && InIntRange(r.value)
  {
    if j.Number? then Some(Trunc(j.num)) else None
  }

  /** `json.object` */
  function AsObject(j: Json): (r: Option<map<string, Json>>)
    ensures r.Some? <==> j.Object?
    ensures r.Some? ==> j == Object(r.value)
  {
    if j.Object? then Some(j.fields) else None
  }

  /** `json.array` */
  function AsArray(j: Json): (r: Option<seq<Json>>)
    ensures r.Some? <==> j.Array?
    ensures r.Some? ==> j == Array(r.value)
  {
    if j.Array? then Some(j.items) else None
  }

  /** `json.bool` */
  function AsBool(j: Json): (r: Option<bool>)
    ensures r.Some? <==> j.Bool?
    ensures r.Some? ==> j == Bool(r.value)
  {
    if j.Bool? then Some(j.flag) else None
  }

  /** At most one narrowing accessor is present, and `null` and `invalid`
      answer none of them. */
  lemma AccessorsExclusive(j: Json)
    ensures (j.Null? || j.Invalid?) <==>
      (AsString(j).None? && AsDouble(j).None? && AsObject(j).None? && AsArray(j).None? && AsBool(j).None?)
    ensures AsString(j).Some? ==> AsDouble(j).None? && AsObject(j).None? && AsArray(j).None? && AsBool(j).None?
    ensures AsDouble(j).Some? ==> AsObject(j).None? && AsArray(j).None? && AsBool(j).None?
    ensures AsObject(j).Some? ==> AsArray(j).None? && AsBool(j).None?
    ensures AsArray(j).Some? ==> AsBool(j).None?
  {
  }

  // ---------------------------------------------------------------------
  // Subscripts: total, with `Invalid` as the answer for every miss.
  // ---------------------------------------------------------------------

  /** `json[key]`: the stored value when `json` is an object holding `key`,
      otherwise the `Invalid` sentinel. */
  function Key(j: Json, key: string): (r: Json)
    ensures AsObject(j).Some? && key in AsObject(j).value ==> r == AsObject(j).value[key]
    ensures AsObject(j).None? || key !in AsObject(j).value ==> r == Invalid
  {
    if j.Object? && key in j.fields then j.fields[key] else Invalid
  }

  /** `json[index]`: the element when `json` is an array longer than
      `index`, otherwise `Invalid`. A negative index passes the source's
      `count > index` test and then traps on `array[index]`, so it is
      excluded for arrays only. */
  function Index(j: Json, index: int): (r: Json)
    requires j.Array? ==> 0 <= index
    ensures AsArray(j).Some? && index < |AsArray(j).value| ==> r == AsArray(j).value[index]
    ensures AsArray(j).None? || |AsArray(j).value| <= index ==> r == Invalid
  {
    if j.Array? && index < |j.items| then j.items[index] else Invalid
  }

  /** On a tree without sentinels a keyed lookup answers `Invalid` exactly
      when the key is missing; a stored `null` comes back as `Null`. */
  lemma KeyMissIsInvalid(j: Json, key: string)
    requires Valid(j)
    ensures Key(j, key) == Invalid <==> !(j.Object? && key in j.fields)
    ensures Key(j, key) != Invalid ==> Valid(Key(j, key))
  {
  }

  /** One step of a chained lookup such as `root["data"][0]["name"]`. */
  datatype Step = KeyStep(key: string) | IndexStep(index: nat)

  function Apply(j: Json, step: Step): Json {
    match step
    case KeyStep(key) => Key(j, key)
    case IndexStep(index) => Index(j, index)
  }

  /** A chain of subscripts applied left to right. */
  function Follow(j: Json, path: seq<Step>): Json
    decreases |path|
  {
    if |path| == 0 then j else Follow(Apply(j, path[0]), path[1..])
  }

  /** Following a path in two pieces is following it at once. */
  lemma {:induction false} FollowConcat(j: Json, p: seq<Step>, q: seq<Step>)
    ensures Follow(j, p + q) == Follow(Follow(j, p), q)
    decreases |p|
  {
    if |p| == 0 {
      assert p + q == q;
    } else {
      assert (p + q)[0] == p[0];
      assert (p + q)[1..] == p[1..] + q;
      FollowConcat(Apply(j, p[0]), p[1..], q);
    }
  }

  /** The sentinel absorbs every further subscript. */
  lemma {:induction false} InvalidAbsorbs(path: seq<Step>)
    ensures Follow(Invalid, path) == Invalid
    decreases |path|
  {
    if |path| != 0 {
      InvalidAbsorbs(path[1..]);
    }
  }

  /** A miss anywhere in a chain of lookups makes the whole chain a miss,
      without any step failing. */
  lemma MissPropagates(j: Json, p: seq<Step>, q: seq<Step>)
    requires Follow(j, p) == Invalid
    ensures Follow(j, p + q) == Invalid
  {
    FollowConcat(j, p, q);
    InvalidAbsorbs(q);
  }

  // ---------------------------------------------------------------------
  // The hand-written `==`.
  // ---------------------------------------------------------------------

  /** `lhs == rhs`: same variant with equal payloads; arrays compare
      element-wise and dictionaries by size and per-key lookup, both through
      this same operator. Every other pairing, `invalid` with `invalid`
      included, falls into the `default: false` case. */
  predicate Equal(a: Json, b: Json)
    ensures Equal(a, b) ==> Valid(a) && Valid(b)
  {
    match (a, b)
    case (Null, Null) => true
    case (Bool(x), Bool(y)) => x == y
    case (String(x), String(y)) => x == y
    case (Number(x), Number(y)) => x == y
    case (Array(xs), Array(ys)) =>
      |xs| == |ys| && forall i :: 0 <= i < |xs| ==> Equal(xs[i], ys[i])
    case (Object(m), Object(n)) =>
      if |m| == |n| && forall k :: k in m ==> k in n && Equal(m[k], n[k]) then
        SubsetOfSameSize(m.Keys, n.Keys);
        true
      else
        false
    case _ => false
  }

  lemma SubsetOfSameSize<T>(a: set<T>, b: set<T>)
    requires a <= b && |a| == |b|
    ensures a == b
  {
    if a != b {
      assert b - a != {} by {
        if b - a == {} {
          forall x | x in b
            ensures x in a
          {
            assert x !in b - a;
          }
        }
      }
      var x :| x in b - a;
      assert a <= b - {x};
      assert |b - {x}| == |b| - 1;
      SubsetSize(a, b - {x});
    }
  }

  lemma {:induction false} SubsetSize<T>(a: set<T>, b: set<T>)
    requires a <= b
    ensures |a| <= |b|
    decreases a
  {
    if a != {} {
      var x :| x in a;
      SubsetSize(a - {x}, b - {x});
    }
  }

  /** `==` agreeing means the two trees are identical and hold no sentinel. */
  lemma {:induction false} EqualMeansIdentical(a: Json, b: Json)
    requires Equal(a, b)
    ensures a == b && Valid(a)
    decreases a
  {
    match (a, b)
    case (Array(xs), Array(ys)) =>
      forall i | 0 <= i < |xs|
        ensures xs[i] == ys[i] && Valid(xs[i])
      {
        EqualMeansIdentical(xs[i], ys[i]);
      }
    case (Object(m), Object(n)) =>
      SubsetOfSameSize(m.Keys, n.Keys);
      forall k | k in m
        ensures m[k] == n[k] && Valid(m[k])
      {
        EqualMeansIdentical(m[k], n[k]);
      }
    case _ =>
  }

  /** Every sentinel-free tree is `==` to itself. */
  lemma {:induction false} EqualReflexiveOnValid(a: Json)
    requires Valid(a)
    ensures Equal(a, a)
    decreases a
  {
    match a
    case Array(xs) =>
      forall i | 0 <= i < |xs|
        ensures Equal(xs[i], xs[i])
      {
        EqualReflexiveOnValid(xs[i]);
      }
    case Object(m) =>
      forall k | k in m
        ensures Equal(m[k], m[k])
      {
        EqualReflexiveOnValid(m[k]);
      }
    case _ =>
  }

  /** The source's `==` is structural identity restricted to trees without
      the sentinel; in particular it is not reflexive on `invalid`. */
  lemma EqualIsIdentityOnValid(a: Json, b: Json)
    ensures Equal(a, b) <==> a == b && Valid(a)
  {
    if Equal(a, b) {
      EqualMeansIdentical(a, b);
    }
    if a == b && Valid(a) {
      EqualReflexiveOnValid(a);
    }
  }

  lemma EqualSymmetric(a: Json, b: Json)
    ensures Equal(a, b) <==> Equal(b, a)
  {
    EqualIsIdentityOnValid(a, b);
    EqualIsIdentityOnValid(b, a);
  }

  lemma EqualTransitive(a: Json, b: Json, c: Json)
    requires Equal(a, b) && Equal(b, c)
    ensures Equal(a, c)
  {
    EqualIsIdentityOnValid(a, b);
    EqualIsIdentityOnValid(b, c);
    EqualIsIdentityOnValid(a, c);
  }

  /** `invalid` equals nothing, itself included, and `null` equals only
      `null`: the two "absent" states are told apart by `==`. */
  lemma SentinelEquality(j: Json)
    ensures !Equal(Invalid, j) && !Equal(j, Invalid)
    ensures Equal(Null, j) <==> j == Null
  {
  }

  /** A stored `null` and a missing key are different answers, and `==`
      keeps them apart. */
  lemma NullIsNotMissing()
    ensures Key(Object(map["a" := Null]), "a") == Null
    ensures Key(Object(map[]), "a") == Invalid
    ensures !Equal(Key(Object(map["a" := Null]), "a"), Key(Object(map[]), "a"))
  {
  }
}

=== FILE: native.dfy ===
/** `JSON.init(_ rawValue: Any)`: classifying a host value into the JSON
    enum, the literal initialisers built on it, the dictionary-literal merge,
    and `JSON.parse`. */
module Classification {
  import opened Wrappers
  import opened JsonValue

  newtype byte = x: int | 0 <= x < 0x100

  /** The host values `init(_:)` distinguishes, in the order it tries them:
      a `JSON`, an `[Any]`, a `[String: Any]`, `Data`, a `String`, an
      `NSNumber` (boolean-typed or not), and everything else, which the
      `Optional<Any>` pattern catches (`nil` and `NSNull` among them). */
  datatype Native =
    | NJson(json: Json)
    | NArray(elements: seq<Native>)
    | NDictionary(entries: map<string, Native>)
    | NData(bytes: seq<byte>)
    | NString(text: string)
    | NNumber(value: real)
    | NBoolean(flag: bool)
    | NNull

  /** The shape of a platform decoder's output: containers, strings,
      numbers, booleans and nulls, with no `Data` and no `JSON` inside. */
  predicate Plain(n: Native) {
    match n
    case NJson(_) => false
    case NData(_) => false
    case NArray(es) => forall i :: 0 <= i < |es| ==> Plain(es[i])
    case NDictionary(d) => forall k :: k in d ==> Plain(d[k])
    case _ => true
  }

  type PlainNative = n: Native | Plain(n) witness NNull

  /** `JSONSerialization.jsonObject(with:options:)`: it either fails or
      returns a plain value. Its tokenising is not part of this model. */
  type Decoder = seq<byte> -> Option<PlainNative>

  /** A value that holds bytes still to decode ranks above a plain one. */
  function Rank(n: Native): nat {
    if Plain(n) then 0 else 1
  }

  /** `JSON(rawValue)`. An array all of whose elements are already `JSON`
      values is taken as `[JSON]`, and likewise a dictionary; other
      containers are classified element by element. Bytes are decoded, and
      a decoding failure gives the sentinel. */
  function Classify(n: Native, decode: Decoder): (r: Json)
    ensures Plain(n) ==> Valid(r)
    ensures n.NData? ==> (r.Invalid? <==> decode(n.bytes).None?)
    ensures n.NArray? ==> r.Array? && |r.items| == |n.elements|
    ensures n.NDictionary? ==> r.Object? && r.fields.Keys == n.entries.Keys
    decreases Rank(n), n
  {
    match n
    case NJson(j) => j
    case NArray(es) =>
      if forall i :: 0 <= i < |es| ==> es[i].NJson? then
        assert Plain(n) ==> forall i :: 0 <= i < |es| ==> Plain(es[i]);
        Array(seq(|es|, i requires 0 <= i < |es| => es[i].json))
      else
        Array(seq(|es|, i requires 0 <= i < |es| => Classify(es[i], decode)))
    case NDictionary(d) =>
      if forall k :: k in d ==> d[k].NJson? then
        assert Plain(n) ==> forall k :: k in d ==> Plain(d[k]);
        Object(map k | k in d :: d[k].json)
      else
        Object(map k | k in d :: Classify(d[k], decode))
    case NData(b) =>
      (match decode(b)
       case None => Invalid
       case Some(v) => Classify(v, decode))
    case NString(s) => String(s)
    case NNumber(x) => Number(x)
    case NBoolean(b) => Bool(b)
    case NNull => Null
  }

  /** The leaf rules: a `JSON` value passes through unchanged, a
      boolean-typed number becomes a bool and any other number a number, a
      string a string, and every remaining value `null`. */
  lemma ClassifyLeaves(j: Json, s: string, x: real, b: bool, decode: Decoder)
    ensures Classify(NJson(j), decode) == j
    ensures Classify(NBoolean(b), decode) == Bool(b)
    ensures Classify(NNumber(x), decode) == Number(x)
    ensures Classify(NString(s), decode) == String(s)
    ensures Classify(NNull, decode) == Null
  {
  }

  /** Which of the two container rules fires does not change the result:
      taking `[JSON]` as is and classifying element by element agree, so
      the result of an array is its elements classified in order, and that
      of a dictionary its values classified under the same keys. */
  lemma ClassifyIsElementwise(n: Native, decode: Decoder)
    ensures n.NArray? ==> forall i :: 0 <= i < |n.elements| ==>
      Classify(n, decode).items[i] == Classify(n.elements[i], decode)
    ensures n.NDictionary? ==> forall k :: k in n.entries ==>
      Classify(n, decode).fields[k] == Classify(n.entries[k], decode)
  {
  }

  /** The plain host value a JSON decoder would produce for a tree: the
      inverse of classification. */
  function Export(j: Json): (n: Native)
    requires Valid(j)
    ensures Plain(n)
    ensures j.Array? <==> n.NArray?
    ensures j.Object? <==> n.NDictionary?
    decreases j
  {
    match j
    case String(s) => NString(s)
    case Number(x) => NNumber(x)
    case Bool(b) => NBoolean(b)
    case Null => NNull
    case Array(items) => NArray(seq(|items|, i requires 0 <= i < |items| => Export(items[i])))
    case Object(fields) => NDictionary(map k | k in fields :: Export(fields[k]))
  }

  /** Classifying the exported form of a sentinel-free tree gives the tree
      back. */
  lemma {:induction false} ClassifyExport(j: Json, decode: Decoder)
    requires Valid(j)
    ensures Classify(Export(j), decode) == j
    decreases j
  {
    match j
    case Array(items) =>
      var es := Export(j).elements;
      forall i | 0 <= i < |items|
        ensures Classify(es[i], decode) == items[i]
      {
        ClassifyExport(items[i], decode);
      }
      ClassifyIsElementwise(Export(j), decode);
      assert Classify(Export(j), decode).items == items;
    case Object(fields) =>
      var d := Export(j).entries;
      forall k | k in fields
        ensures Classify(d[k], decode) == fields[k]
      {
        ClassifyExport(fields[k], decode);
      }
      ClassifyIsElementwise(Export(j), decode);
      assert Classify(Export(j), decode).fields == fields;
    case _ =>
  }

  /** Exporting the classification of a plain host value gives the value
      back: on decoder output, classification loses nothing. */
  lemma {:induction false} ExportClassify(n: Native, decode: Decoder)
    requires Plain(n)
    ensures Export(Classify(n, decode)) == n
    decreases n
  {
    match n
    case NArray(es) =>
      forall i | 0 <= i < |es|
        ensures Export(Classify(es[i], decode)) == es[i]
      {
        ExportClassify(es[i], decode);
      }
      ClassifyIsElementwise(n, decode);
      assert Export(Classify(n, decode)).elements == es;
    case NDictionary(d) =>
      forall k | k in d
        ensures Export(Classify(d[k], decode)) == d[k]
      {
        ExportClassify(d[k], decode);
      }
      ClassifyIsElementwise(n, decode);
      assert Export(Classify(n, decode)).entries == d;
    case _ =>
  }

  // ---------------------------------------------------------------------
  // Parsing.
  // ---------------------------------------------------------------------

  /** `JSONError.parseError`; the host's description of the underlying
      error is not modelled. */
  datatype JsonError = ParseError

  /** `JSON.parse(_ data: Data)`: decoder failure is thrown as a parse
      error; success is classified, and agrees with `JSON(data)`. */
  function ParseData(bytes: seq<byte>, decode: Decoder): (r: Result<Json, JsonError>)
    ensures r.Success? <==> decode(bytes).Some?
    ensures r.Success? ==> Valid(r.value) && r.value == Classify(NData(bytes), decode)
    ensures r.Failure? ==> Classify(NData(bytes), decode) == Invalid
  {
    match decode(bytes)
    case None => Failure(ParseError)
    case Some(v) => Success(Classify(v, decode))
  }

  /** `JSON.parse(_ string: String)`: the UTF-8 encoding step is the host's
      `encode`, and its failure is a parse error too. */
  function ParseText(text: string, encode: string -> Option<seq<byte>>, decode: Decoder): (r: Result<Json, JsonError>)
    ensures r.Success? <==> encode(text).Some? && decode(encode(text).value).Some?
    ensures r.Success? ==> r == ParseData(encode(text).value, decode)
  {
    match encode(text)
    case None => Failure(ParseError)
    case Some(bytes) => ParseData(bytes, decode)
  }

  // ---------------------------------------------------------------------
  // Literal initialisers.
  // ---------------------------------------------------------------------

  /** Scalar literals never reach the byte branch, so the decoder they are
      classified with does not matter. */
  const NoData: Decoder := _ => None

  /** `init(stringLiteral:)` and its grapheme and scalar variants. */
  function FromStringLiteral(value: string): (r: Json)
    ensures AsString(r) == Some(value)
  {
    Classify(NString(value), NoData)
  }

  /** `init(integerLiteral:)`: the `Int` is boxed as a non-boolean number;
      reading it back with `integer` gives the literal. */
  function FromIntegerLiteral(value: int): (r: Json)
    requires InIntRange(value)
    ensures AsDouble(r) == Some(value as real)
    ensures AsInteger(r) == Some(value)
  {
    Classify(NNumber(value as real), NoData)
  }

  /** `init(floatLiteral:)` */
  function FromFloatLiteral(value: real): (r: Json)
    ensures AsDouble(r) == Some(value)
  {
    Classify(NNumber(value), NoData)
  }

  /** `init(booleanLiteral:)`: a boolean-typed number, so `bool` and not
      `number`. */
  function FromBooleanLiteral(value: bool): (r: Json)
    ensures AsBool(r) == Some(value) && AsDouble(r) == None
  {
    Classify(NBoolean(value), NoData)
  }

  /** `init(nilLiteral:)`: `NSNull()`, caught by the `Optional<Any>` case. */
  function FromNilLiteral(): (r: Json)
    ensures r == Null
  {
    Classify(NNull, NoData)
  }

  /** `init(arrayLiteral:)`: the elements classified in order. */
  function FromArrayLiteral(elements: seq<Native>, decode: Decoder): (r: Json)
    ensures AsArray(r).Some? && |AsArray(r).value| == |elements|
    ensures forall i :: 0 <= i < |elements| ==> Index(r, i) == Classify(elements[i], decode)
  {
    ClassifyIsElementwise(NArray(elements), decode);
    Classify(NArray(elements), decode)
  }

  // ---------------------------------------------------------------------
  // The dictionary literal.
  // ---------------------------------------------------------------------

  /** The private `+` on `[String: Any]`: every pair of `rhs` is stored into
      a copy of `lhs`, so `rhs` wins on shared keys and other keys of `lhs`
      keep their values. */
  method Merge<V>(lhs: map<string, V>, rhs: map<string, V>) returns (r: map<string, V>)
    ensures r.Keys == lhs.Keys + rhs.Keys
    ensures forall k :: k in rhs ==> r[k] == rhs[k]
    ensures forall k :: k in lhs && k !in rhs ==> r[k] == lhs[k]
  {
    r := lhs;
    var todo := rhs.Keys;
    while todo != {}
      invariant todo <= rhs.Keys
      invariant r.Keys == lhs.Keys + (rhs.Keys - todo)
      invariant forall k :: k in rhs && k !in todo ==> r[k] == rhs[k]
      invariant forall k :: k in lhs && (k !in rhs || k in todo) ==> r[k] == lhs[k]
      decreases todo
    {
      var k :| k in todo;
      r := r[k := rhs[k]];
      todo := todo - {k};
    }
  }

  /** The value the last pair with key `k` carries, if any pair does. */
  function LastValue<V>(pairs: seq<(string, V)>, k: string): Option<V>
    decreases |pairs|
  {
    if |pairs| == 0 then None
    else if pairs[|pairs| - 1].0 == k then Some(pairs[|pairs| - 1].1)
    else LastValue(pairs[..|pairs| - 1], k)
  }

  /** `elements.reduce([:]) { $0 + [$1.0: $1.1] }`: the pairs folded left
      to right with `+`, so the last pair with a given key wins. */
  method CollectPairs<V>(pairs: seq<(string, V)>) returns (m: map<string, V>)
    ensures forall k :: k in m <==> LastValue(pairs, k).Some?
    ensures forall k :: k in m ==> m[k] == LastValue(pairs, k).value
  {
    m := map[];
    for i := 0 to |pairs|
      invariant forall k :: k in m <==> LastValue(pairs[..i], k).Some?
      invariant forall k :: k in m ==> m[k] == LastValue(pairs[..i], k).value
    {
      assert pairs[..i + 1][..i] == pairs[..i];
      m := Merge(m, map[pairs[i].0 := pairs[i].1]);
    }
    assert pairs[..|pairs|] == pairs;
  }

  /** A key occurs in some pair exactly when the last-pair lookup finds it. */
  lemma {:induction false} LastValueFound<V>(pairs: seq<(string, V)>, k: string)
    ensures LastValue(pairs, k).Some? <==> exists i :: 0 <= i < |pairs| && pairs[i].0 == k
    ensures LastValue(pairs, k).Some? ==>
      exists i :: 0 <= i < |pairs| && pairs[i] == (k, LastValue(pairs, k).value) &&
        forall j :: i < j < |pairs| ==> pairs[j].0 != k
    decreases |pairs|
  {
    if |pairs| > 0 {
      var last := |pairs| - 1;
      var front := pairs[..last];
      LastValueFound(front, k);
      if pairs[last].0 != k {
        if LastValue(front, k).Some? {
          var i :| 0 <= i < |front| && front[i] == (k, LastValue(front, k).value)
            && forall j :: i < j < |front| ==> front[j].0 != k;
          assert pairs[i] == front[i];
        }
        if exists i :: 0 <= i < |pairs| && pairs[i].0 == k {
          var i :| 0 <= i < |pairs| && pairs[i].0 == k;
          assert front[i].0 == k;
        }
      }
    }
  }

  /** `init(dictionaryLiteral:)`: the pairs merged left to right, then
      classified; each key of the literal appears once, with the value of
      its last pair. */
  method FromDictionaryLiteral(pairs: seq<(string, Native)>, decode: Decoder) returns (r: Json)
    ensures AsObject(r).Some?
    ensures forall k :: k in AsObject(r).value <==> exists i :: 0 <= i < |pairs| && pairs[i].0 == k
    ensures forall k :: k in AsObject(r).value ==>
      LastValue(pairs, k).Some? && Key(r, k) == Classify(LastValue(pairs, k).value, decode)
  {
    var m := CollectPairs(pairs);
    r := Classify(NDictionary(m), decode);
    ClassifyIsElementwise(NDictionary(m), decode);
    forall k
      ensures k in r.fields <==> exists i :: 0 <= i < |pairs| && pairs[i].0 == k
    {
      LastValueFound(pairs, k);
    }
  }
}

=== FILE: printer.dfy ===
/** The recursive pretty-printer of `JSON.swift` (`prettyPrint`,
    `stringify`, `description`). */
module Printer {
  import opened Wrappers
  import opened JsonValue
  import opened Text

  /** What the host platform decides and the model leaves open: the text
      Swift's string interpolation gives a `Double`, and the order in which a
      dictionary hands out its entries. */
  datatype Host = Host(numberText: real -> string, keyOrder: map<string, Json> -> seq<string>)

  /** A dictionary enumeration: every key of `m` exactly once. */
  predicate Enumerates(ks: seq<string>, m: map<string, Json>) {
    && (forall k :: k in m ==> k in ks)
    && (forall i :: 0 <= i < |ks| ==> ks[i] in m)
    && (forall i, j :: 0 <= i < j < |ks| ==> ks[i] != ks[j])
  }

  /** The host hands out the entries of every dictionary as Swift's `map`
      over a dictionary does: each key exactly once. */
  ghost predicate EnumeratesKeys(host: Host) {
    forall m :: Enumerates(host.keyOrder(m), m)
  }

  /** An enumeration is as long as the dictionary it enumerates. */
  lemma {:induction false} EnumerationSize(ks: seq<string>, m: map<string, Json>)
    requires Enumerates(ks, m)
    ensures |ks| == |m|
    decreases |ks|
  {
    if |ks| == 0 {
      assert m.Keys == {};
    } else {
      var rest := m - {ks[0]};
      assert Enumerates(ks[1..], rest) by {
        forall k | k in rest ensures k in ks[1..] {
          assert k in ks && k != ks[0];
          var i :| 0 <= i < |ks| && ks[i] == k;
          assert ks[1..][i - 1] == k;
        }
        forall i | 0 <= i < |ks[1..]| ensures ks[1..][i] in rest {
          assert ks[1..][i] == ks[i + 1] != ks[0];
        }
      }
      EnumerationSize(ks[1..], rest);
      assert rest.Keys == m.Keys - {ks[0]};
    }
  }

  /** The keys of `ks` that `m` holds, in the order of `ks`. */
  function Present(ks: seq<string>, m: map<string, Json>): (r: seq<string>)
    ensures forall i :: 0 <= i < |r| ==> r[i] in m
    ensures forall k :: k in r <==> k in ks && k in m
    ensures (forall i :: 0 <= i < |ks| ==> ks[i] in m) ==> r == ks
    decreases |ks|
  {
    if |ks| == 0 then []
    else
      var rest := Present(ks[1..], m);
      if ks[0] in m then [ks[0]] + rest else rest
  }

  /** `currentIndent` as the source builds it: `level + 1` empty strings
      joined by `indent`, which is `indent` written `level` times. */
  function CurrentIndent(indent: string, level: nat): (r: string)
    ensures r == Repeat(indent, level)
  {
    JoinEmpties(level + 1, indent);
    Join(seq(level + 1, _ => ""), indent)
  }

  /** `nextIndent`: two literal spaces past `currentIndent`, whatever
      `indent` is. */
  function NextIndent(indent: string, level: nat): (r: string)
    ensures r == Repeat(indent, level) + "  "
  {
    CurrentIndent(indent, level) + "  "
  }

  /** An array or object body: the opening bracket and a newline, the
      entry lines joined by `,\n`, then a newline and the closing bracket at
      the block's own `currentIndent`. */
  function Block(open: string, lines: seq<string>, indent: string, level: nat, close: string): (r: string)
    ensures |open| + 1 <= |r| && r[..|open| + 1] == open + "\n"
    ensures EndsWith(r, "\n" + Repeat(indent, level) + close)
    ensures lines == [] ==> r == open + "\n\n" + Repeat(indent, level) + close
  {
    var tail := "\n" + CurrentIndent(indent, level) + close;
    var r := open + "\n" + Join(lines, ",\n") + "\n" + CurrentIndent(indent, level) + close;
    assert r == (open + "\n") + (Join(lines, ",\n") + tail);
    assert r == (open + "\n" + Join(lines, ",\n")) + tail;
    r
  }

  /** `prettyPrint(indent, level)`. A nested sentinel prints as the empty
      string (the source's `assert(false)` is a debug-build trap only). */
  function PrettyPrint(j: Json, indent: string, level: nat, host: Host): (r: string)
    ensures j.String? ==> r == "\"" + j.str + "\""
    ensures j.Array? ==> |r| >= 2 && r[..2] == "[\n"
    ensures j.Object? ==> |r| >= 2 && r[..2] == "{\n"
    ensures j.Array? ==> EndsWith(r, "\n" + Repeat(indent, level) + "]")
    ensures j.Object? ==> EndsWith(r, "\n" + Repeat(indent, level) + "}")
    ensures j.Array? && j.items == [] ==> r == "[\n\n" + Repeat(indent, level) + "]"
    ensures j.Object? && j.fields == map[] ==> r == "{\n\n" + Repeat(indent, level) + "}"
    ensures j.Invalid? ==> r == ""
    decreases j, 1
  {
    match j
    case Bool(b) => if b then "true" else "false"
    case Number(x) => host.numberText(x)
    case String(s) => "\"" + s + "\""
    case Array(_) => Block("[", ItemTexts(j, indent, level, host), indent, level, "]")
    case Object(_) => Block("{", EntryTexts(j, indent, level, host), indent, level, "}")
    case Null => "null"
    case Invalid => ""
  }

  /** The lines of an array before joining: each element printed one level
      deeper behind `nextIndent`. */
  function ItemTexts(j: Json, indent: string, level: nat, host: Host): (r: seq<string>)
    requires j.Array?
    ensures |r| == |j.items|
    decreases j, 0
  {
    seq(|j.items|, i requires 0 <= i < |j.items| =>
      NextIndent(indent, level) + PrettyPrint(j.items[i], indent, level + 1, host))
  }

  /** The keys of an object in the order the host enumerates them. */
  function ObjectKeys(fields: map<string, Json>, host: Host): seq<string> {
    Present(host.keyOrder(fields), fields)
  }

  /** The lines of an object before joining: `"key" : value` behind
      `nextIndent`, with the value printed one level deeper. */
  function EntryTexts(j: Json, indent: string, level: nat, host: Host): (r: seq<string>)
    requires j.Object?
    ensures |r| == |ObjectKeys(j.fields, host)|
    decreases j, 0
  {
    var ks := ObjectKeys(j.fields, host);
    seq(|ks|, i requires 0 <= i < |ks| =>
      NextIndent(indent, level) + "\"" + ks[i] + "\" : " + PrettyPrint(j.fields[ks[i]], indent, level + 1, host))
  }

  /** With a host that enumerates each key once, an object prints exactly
      one line per key: `"key" : value` behind `nextIndent`, the value one
      level deeper. */
  lemma EntryLines(j: Json, indent: string, level: nat, host: Host)
    requires j.Object? && EnumeratesKeys(host)
    ensures |EntryTexts(j, indent, level, host)| == |j.fields|
    ensures forall k :: k in j.fields ==>
      exists i :: (0 <= i < |j.fields| &&
        EntryTexts(j, indent, level, host)[i]
          == NextIndent(indent, level) + "\"" + k + "\" : " + PrettyPrint(j.fields[k], indent, level + 1, host))
  {
    var ks := ObjectKeys(j.fields, host);
    assert Enumerates(host.keyOrder(j.fields), j.fields);
    assert ks == host.keyOrder(j.fields);
    EnumerationSize(ks, j.fields);
    forall k | k in j.fields
      ensures exists i :: (0 <= i < |j.fields| &&
        EntryTexts(j, indent, level, host)[i]
          == NextIndent(indent, level) + "\"" + k + "\" : " + PrettyPrint(j.fields[k], indent, level + 1, host))
    {
      var i :| 0 <= i < |ks| && ks[i] == k;
      assert EntryTexts(j, indent, level, host)[i]
          == NextIndent(indent, level) + "\"" + k + "\" : " + PrettyPrint(j.fields[k], indent, level + 1, host);
    }
  }

  /** `stringify(indent)` as its guard intends: no text exactly for a
      sentinel root, and the level-0 rendering otherwise. */
  function Stringify(j: Json, indent: string, host: Host): (r: Option<string>)
    ensures r.None? <==> j.Invalid?
    ensures r.Some? ==> r.value == PrettyPrint(j, indent, 0, host)
  {
    if j.Invalid? then None else Some(PrettyPrint(j, indent, 0, host))
  }

  /** `stringify(indent)` as written: the guard `self != .invalid` is the
      negation of the source's own `==`, which never holds for two
      sentinels. */
  function StringifyAsWritten(j: Json, indent: string, host: Host): (r: Option<string>)
    ensures r.Some? ==> r.value == PrettyPrint(j, indent, 0, host)
    ensures r == Stringify(j, indent, host) <==> !j.Invalid?
  {
    if !Equal(j, Invalid) then Some(PrettyPrint(j, indent, 0, host)) else None
  }

  /** The guard never fires: `stringify` as written always returns text,
      the empty text for a sentinel root, so it differs from the intended
      behaviour exactly at `invalid`. */
  lemma StringifyGuardNeverFires(j: Json, indent: string, host: Host)
    ensures StringifyAsWritten(j, indent, host) == Some(PrettyPrint(j, indent, 0, host))
    ensures StringifyAsWritten(Invalid, indent, host) == Some("")
    ensures StringifyAsWritten(j, indent, host) == Stringify(j, indent, host) <==> !j.Invalid?
  {
    SentinelEquality(j);
  }

  /** `description`: the default-indent rendering, or the fixed marker for
      a sentinel root. */
  function Description(j: Json, host: Host): (r: string)
    ensures j.Invalid? ==> r == "<INVALID JSON>"
    ensures !j.Invalid? ==> Stringify(j, "  ", host) == Some(r)
  {
    match Stringify(j, "  ", host)
    case None => "<INVALID JSON>"
    case Some(s) => s
  }

  /** `description` as written: it rests on `stringify` as written, whose
      answer is never empty, so its `<INVALID JSON>` fallback is dead and a
      sentinel root shows as the empty text. */
  function DescriptionAsWritten(j: Json, host: Host): (r: string)
    ensures j.Invalid? ==> r == ""
    ensures !j.Invalid? ==> r == Description(j, host)
  {
    StringifyGuardNeverFires(j, "  ", host);
    StringifyAsWritten(j, "  ", host).value
  }

  /** Leaves print as fixed words or as the raw string between quotes, with
      no escaping. */
  lemma LeafTexts(s: string, b: bool, x: real, indent: string, level: nat, host: Host)
    ensures PrettyPrint(Bool(b), indent, level, host) == (if b then "true" else "false")
    ensures PrettyPrint(Null, indent, level, host) == "null"
    ensures PrettyPrint(String(s), indent, level, host) == "\"" + s + "\""
    ensures PrettyPrint(Number(x), indent, level, host) == host.numberText(x)
  {
  }

  /** Children are indented by two spaces past the parent even when
      `indent` is something else, while closing brackets use `indent`: with
      a tab, the inner closing bracket sits under nothing it opened. */
  lemma NestedIndentExample(host: Host)
    ensures PrettyPrint(Array([Array([])]), "\t", 0, host) == "[\n  [\n\n\t]\n]"
  {
    var inner := Array([]);
    assert ItemTexts(inner, "\t", 1, host) == [];
    assert CurrentIndent("\t", 1) == "\t";
    assert PrettyPrint(inner, "\t", 1, host) == "[\n\n\t]";
    assert CurrentIndent("\t", 0) == "";
    assert NextIndent("\t", 0) == "  ";
    assert ItemTexts(Array([inner]), "\t", 0, host)[0] == "  [\n\n\t]";
    assert Join(ItemTexts(Array([inner]), "\t", 0, host), ",\n") == "  [\n\n\t]";
  }
}

=== FILE: reader.dfy ===
/** A reader for exactly the layout `prettyPrint` produces, used as the
    printer's inverse: printing a sentinel-free tree whose strings and keys
    hold no quote character and reading the text back gives the tree again.
    The library itself reads JSON through the platform decoder; this reader
    exists to state what the printed text determines. */
module Reader {
  import opened Wrappers
  import opened JsonValue
  import opened Text
  import opened Printer

  /** Length of the longest prefix of `s` free of the characters in `stops`. */
  function Span(s: string, stops: set<char>): (n: nat)
    ensures n <= |s|
    ensures forall i :: 0 <= i < n ==> s[i] !in stops
    ensures n < |s| ==> s[n] in stops
    decreases |s|
  {
    if |s| == 0 || s[0] in stops then 0 else 1 + Span(s[1..], stops)
  }

  /** The rest of `s` after the prefix `p`, if `s` starts with `p`. */
  function Expect(s: string, p: string): Option<string> {
    if |p| <= |s| && s[..|p|] == p then Some(s[|p|..]) else None
  }

  /** The line that closes a bracket opened at `level`. */
  function Closing(indent: string, level: nat, bracket: string): string {
    "\n" + CurrentIndent(indent, level) + bracket
  }

  /** Reads one value printed at `level` from the front of `s`, returning
      the value and the unread rest. A word that is not `true`, `false` or
      `null` is handed to `numberValue`. */
  function ReadValue(s: string, indent: string, level: nat, numberValue: string -> Option<real>): (r: Option<(Json, string)>)
    ensures r.Some? ==> |r.value.1| <= |s|
    decreases |s|, 1
  {
    if |s| > 0 && s[0] == '"' then
      var n := Span(s[1..], {'"'});
      if n == |s| - 1 then None else Some((String(s[1..n + 1]), s[n + 2..]))
    else if |s| > 0 && s[0] == '[' then
      match Expect(s[1..], "\n")
      case None => None
      case Some(t) =>
        if |t| > 0 && t[0] == '\n' then
          match Expect(t, Closing(indent, level, "]"))
          case None => None
          case Some(u) => Some((Array([]), u))
        else
          match ReadItems(t, indent, level, numberValue)
          case None => None
          case Some(p) => Some((Array(p.0), p.1))
    else if |s| > 0 && s[0] == '{' then
      match Expect(s[1..], "\n")
      case None => None
      case Some(t) =>
        if |t| > 0 && t[0] == '\n' then
          match Expect(t, Closing(indent, level, "}"))
          case None => None
          case Some(u) => Some((Object(map[]), u))
        else
          match ReadEntries(t, indent, level, numberValue)
          case None => None
          case Some(p) => Some((Object(p.0), p.1))
    else
      var n := Span(s, {',', '\n'});
      var w := s[..n];
      if w == "true" then Some((Bool(true), s[n..]))
      else if w == "false" then Some((Bool(false), s[n..]))
      else if w == "null" then Some((Null, s[n..]))
      else
        match numberValue(w)
        case None => None
        case Some(x) => Some((Number(x), s[n..]))
  }

  /** Reads the element lines of an array opened at `level`, through its
      closing line. */
  function ReadItems(s: string, indent: string, level: nat, numberValue: string -> Option<real>): (r: Option<(seq<Json>, string)>)
    ensures r.Some? ==> |r.value.1| < |s|
    decreases |s|, 0
  {
    match Expect(s, NextIndent(indent, level))
    case None => None
    case Some(t) =>
      match ReadValue(t, indent, level + 1, numberValue)
      case None => None
      case Some(p) =>
        match Expect(p.1, ",\n")
        case Some(u) =>
          (match ReadItems(u, indent, level, numberValue)
           case None => None
           case Some(q) => Some(([p.0] + q.0, q.1)))
        case None =>
          match Expect(p.1, Closing(indent, level, "]"))
          case None => None
          case Some(u) => Some(([p.0], u))
  }

  /** Reads the `"key" : value` lines of an object opened at `level`,
      through its closing line; a later line wins over an earlier one with
      the same key. */
  function ReadEntries(s: string, indent: string, level: nat, numberValue: string -> Option<real>): (r: Option<(map<string, Json>, string)>)
    ensures r.Some? ==> |r.value.1| < |s|
    decreases |s|, 0
  {
    match Expect(s, NextIndent(indent, level) + "\"")
    case None => None
    case Some(t) =>
      var n := Span(t, {'"'});
      match Expect(t[n..], "\" : ")
      case None => None
      case Some(t') =>
        match ReadValue(t', indent, level + 1, numberValue)
        case None => None
        case Some(p) =>
          match Expect(p.1, ",\n")
          case Some(u) =>
            (match ReadEntries(u, indent, level, numberValue)
             case None => None
             case Some(q) => Some((map[t[..n] := p.0] + q.0, q.1)))
          case None =>
            match Expect(p.1, Closing(indent, level, "}"))
            case None => None
            case Some(u) => Some((map[t[..n] := p.0], u))
  }

  /** Reads a whole printed document. */
  function Read(s: string, indent: string, numberValue: string -> Option<real>): Option<Json> {
    match ReadValue(s, indent, 0, numberValue)
    case Some(p) => if p.1 == "" then Some(p.0) else None
    case None => None
  }

  // ---------------------------------------------------------------------
  // What the round trip needs.
  // ---------------------------------------------------------------------

  /** A tree the printer renders unambiguously: no sentinel, and no quote
      character inside a string or a key (the printer does not escape). */
  predicate Readable(j: Json) {
    match j
    case Invalid => false
    case String(s) => '"' !in s
    case Array(items) => forall i :: 0 <= i < |items| ==> Readable(items[i])
    case Object(fields) => forall k :: k in fields ==> '"' !in k && Readable(fields[k])
    case _ => true
  }

  /** A word the reader takes as one token that is not a bracket or a
      quoted string and not a keyword. */
  predicate Word(w: string) {
    && ',' !in w && '\n' !in w
    && (|w| > 0 ==> w[0] != '"' && w[0] != '[' && w[0] != '{')
  }

  /** Each number of `j` is rendered by the host as a word the reader does
      not take for a keyword, and `numberValue` turns that word back into
      the number. */
  predicate NumbersRead(j: Json, host: Host, numberValue: string -> Option<real>) {
    match j
    case Number(x) =>
      && Word(host.numberText(x))
      && host.numberText(x) !in {"true", "false", "null"}
      && numberValue(host.numberText(x)) == Some(x)
    case Array(items) => forall i :: 0 <= i < |items| ==> NumbersRead(items[i], host, numberValue)
    case Object(fields) => forall k :: k in fields ==> NumbersRead(fields[k], host, numberValue)
    case _ => true
  }

  /** What may follow a printed value: nothing, or the start of `,\n` or of
      a closing line. */
  predicate Follows(rest: string) {
    |rest| == 0 || rest[0] == ',' || rest[0] == '\n'
  }

  lemma {:induction false} ReadableIsValid(j: Json)
    requires Readable(j)
    ensures Valid(j)
    decreases j
  {
    match j
    case Array(items) =>
      forall i | 0 <= i < |items|
        ensures Valid(items[i])
      {
        ReadableIsValid(items[i]);
      }
    case Object(fields) =>
      forall k | k in fields
        ensures Valid(fields[k])
      {
        ReadableIsValid(fields[k]);
      }
    case _ =>
  }

  lemma SpanOfPrefix(w: string, rest: string, stops: set<char>)
    requires forall i :: 0 <= i < |w| ==> w[i] !in stops
    requires |rest| == 0 || rest[0] in stops
    ensures Span(w + rest, stops) == |w|
  {
    assert forall i :: 0 <= i < |w| ==> (w + rest)[i] == w[i];
    if |rest| > 0 {
      assert (w + rest)[|w|] == rest[0];
    }
  }

  lemma ExpectPrefix(p: string, t: string)
    ensures Expect(p + t, p) == Some(t)
  {
    assert (p + t)[..|p|] == p;
    assert (p + t)[|p|..] == t;
  }

  /** Indentation lines hold no newline and are at least two long. */
  lemma NextIndentShape(indent: string, level: nat)
    requires '\n' !in indent
    ensures |NextIndent(indent, level)| >= 2
    ensures '\n' !in NextIndent(indent, level)
  {
    RepeatChars(indent, level, '\n');
  }

  lemma ClosingNotComma(indent: string, level: nat, bracket: string, rest: string)
    ensures Expect(Closing(indent, level, bracket) + rest, ",\n") == None
    ensures Follows(Closing(indent, level, bracket) + rest)
  {
    assert (Closing(indent, level, bracket) + rest)[0] == '\n';
  }

  lemma {:induction false} JoinTail(xs: seq<string>, k: nat, sep: string)
    requires k + 1 < |xs|
    ensures Join(xs[k..], sep) == xs[k] + sep + Join(xs[k + 1..], sep)
  {
    assert xs[k..][1..] == xs[k + 1..];
  }

  /** Joined element lines start with the first line. */
  lemma JoinStart(xs: seq<string>, sep: string, t: string)
    requires |xs| > 0 && |xs[0]| > 0
    ensures |Join(xs, sep) + t| > 0 && (Join(xs, sep) + t)[0] == xs[0][0]
  {
    if |xs| > 1 {
      JoinTail(xs, 0, sep);
      assert xs[0..] == xs;
    }
  }

  // ---------------------------------------------------------------------
  // One step of the reader at a time.
  // ---------------------------------------------------------------------

  /** A leaf printed as a word reads back as `v`. */
  lemma ReadWord(w: string, rest: string, v: Json, indent: string, level: nat, numberValue: string -> Option<real>)
    requires Word(w) && Follows(rest)
    requires w == "true" ==> v == Bool(true)
    requires w == "false" ==> v == Bool(false)
    requires w == "null" ==> v == Null
    requires w !in {"true", "false", "null"} ==> v.Number? && numberValue(w) == Some(v.num)
    ensures ReadValue(w + rest, indent, level, numberValue) == Some((v, rest))
  {
    var s := w + rest;
    SpanOfPrefix(w, rest, {',', '\n'});
    assert s[..|w|] == w && s[|w|..] == rest;
    if |w| > 0 {
      assert s[0] == w[0];
    }
  }

  /** A quoted string without inner quotes reads back as itself. */
  lemma ReadQuoted(str: string, rest: string, indent: string, level: nat, numberValue: string -> Option<real>)
    requires '"' !in str
    ensures ReadValue("\"" + str + "\"" + rest, indent, level, numberValue) == Some((String(str), rest))
  {
    var s := "\"" + str + "\"" + rest;
    assert s[1..] == str + ("\"" + rest);
    SpanOfPrefix(str, "\"" + rest, {'"'});
    assert s[1..|str| + 1] == str;
    assert s[|str| + 2..] == rest;
  }

  lemma ReadOpenEmpty(open: string, close: string, indent: string, level: nat, numberValue: string -> Option<real>,
                      rest: string, v: Json)
    requires (open == "[" && close == "]" && v == Array([])) || (open == "{" && close == "}" && v == Object(map[]))
    ensures ReadValue(open + ("\n" + (Closing(indent, level, close) + rest)), indent, level, numberValue) == Some((v, rest))
  {
    var t := Closing(indent, level, close) + rest;
    var s := open + ("\n" + t);
    assert s[0] == open[0];
    assert s[1..] == "\n" + t;
    ExpectPrefix("\n", t);
    ExpectPrefix(Closing(indent, level, close), rest);
    assert t[0] == '\n';
  }

  lemma ReadArrayOpen(t: string, indent: string, level: nat, numberValue: string -> Option<real>, items: seq<Json>, rest: string)
    requires |t| > 0 && t[0] != '\n'
    requires ReadItems(t, indent, level, numberValue) == Some((items, rest))
    ensures ReadValue("[" + ("\n" + t), indent, level, numberValue) == Some((Array(items), rest))
  {
    var s := "[" + ("\n" + t);
    assert s[0] == '[';
    assert s[1..] == "\n" + t;
    ExpectPrefix("\n", t);
  }

  lemma ReadObjectOpen(t: string, indent: string, level: nat, numberValue: string -> Option<real>, fields: map<string, Json>, rest: string)
    requires |t| > 0 && t[0] != '\n'
    requires ReadEntries(t, indent, level, numberValue) == Some((fields, rest))
    ensures ReadValue("{" + ("\n" + t), indent, level, numberValue) == Some((Object(fields), rest))
  {
    var s := "{" + ("\n" + t);
    assert s[0] == '{';
    assert s[1..] == "\n" + t;
    ExpectPrefix("\n", t);
  }

  lemma ReadItemsMore(t: string, indent: string, level: nat, numberValue: string -> Option<real>, v: Json, w: string)
    requires ReadValue(t, indent, level + 1, numberValue) == Some((v, ",\n" + w))
    ensures ReadItems(NextIndent(indent, level) + t, indent, level, numberValue)
         == (match ReadItems(w, indent, level, numberValue)
             case None => None
             case Some(q) => Some(([v] + q.0, q.1)))
  {
    ExpectPrefix(NextIndent(indent, level), t);
    ExpectPrefix(",\n", w);
  }

  lemma ReadItemsLast(t: string, indent: string, level: nat, numberValue: string -> Option<real>, v: Json, rest: string)
    requires ReadValue(t, indent, level + 1, numberValue) == Some((v, Closing(indent, level, "]") + rest))
    ensures ReadItems(NextIndent(indent, level) + t, indent, level, numberValue) == Some(([v], rest))
  {
    ExpectPrefix(NextIndent(indent, level), t);
    ClosingNotComma(indent, level, "]", rest);
    ExpectPrefix(Closing(indent, level, "]"), rest);
  }

  /** After the indentation and opening quote of an entry, the key and the
      ` : ` separator are consumed and the value is next. */
  lemma EntryHead(key: string, t: string)
    requires '"' !in key
    ensures Span(key + ("\" : " + t), {'"'}) == |key|
    ensures (key + ("\" : " + t))[..|key|] == key
    ensures Expect((key + ("\" : " + t))[|key|..], "\" : ") == Some(t)
  {
    SpanOfPrefix(key, "\" : " + t, {'"'});
    assert (key + ("\" : " + t))[|key|..] == "\" : " + t;
    ExpectPrefix("\" : ", t);
  }

  lemma ReadEntriesMore(key: string, t: string, indent: string, level: nat, numberValue: string -> Option<real>, v: Json, w: string)
    requires '"' !in key
    requires ReadValue(t, indent, level + 1, numberValue) == Some((v, ",\n" + w))
    ensures ReadEntries((NextIndent(indent, level) + "\"") + (key + ("\" : " + t)), indent, level, numberValue)
         == (match ReadEntries(w, indent, level, numberValue)
             case None => None
             case Some(q) => Some((map[key := v] + q.0, q.1)))
  {
    ExpectPrefix(NextIndent(indent, level) + "\"", key + ("\" : " + t));
    EntryHead(key, t);
    ExpectPrefix(",\n", w);
  }

  lemma ReadEntriesLast(key: string, t: string, indent: string, level: nat, numberValue: string -> Option<real>, v: Json, rest: string)
    requires '"' !in key
    requires ReadValue(t, indent, level + 1, numberValue) == Some((v, Closing(indent, level, "}") + rest))
    ensures ReadEntries((NextIndent(indent, level) + "\"") + (key + ("\" : " + t)), indent, level, numberValue)
         == Some((map[key := v], rest))
  {
    ExpectPrefix(NextIndent(indent, level) + "\"", key + ("\" : " + t));
    EntryHead(key, t);
    ClosingNotComma(indent, level, "}", rest);
    ExpectPrefix(Closing(indent, level, "}"), rest);
  }

  /** A block followed by `rest`, regrouped the way the reader consumes it. */
  lemma BlockSplit(open: string, lines: seq<string>, indent: string, level: nat, close: string, rest: string)
    ensures Block(open, lines, indent, level, close) + rest
         == open + ("\n" + (Join(lines, ",\n") + (Closing(indent, level, close) + rest)))
  {
  }

  lemma SliceCons<T>(xs: seq<T>, k: nat)
    requires k < |xs|
    ensures xs[k..] == [xs[k]] + xs[k + 1..]
    ensures k + 1 == |xs| ==> xs[k..] == [xs[k]]
  {
  }

  lemma Assoc(a: string, b: string, c: string)
    ensures (a + b) + c == a + (b + c)
  {
  }

  /** The last line of a join, followed by `after`. */
  lemma JoinLast(texts: seq<string>, k: nat, after: string)
    requires k + 1 == |texts|
    ensures Join(texts[k..], ",\n") + after == texts[k] + after
  {
    assert texts[k..] == [texts[k]];
  }

  /** A line of a join that has more lines after it, followed by `after`. */
  lemma JoinMore(texts: seq<string>, k: nat, after: string)
    requires k + 1 < |texts|
    ensures Join(texts[k..], ",\n") + after == texts[k] + (",\n" + (Join(texts[k + 1..], ",\n") + after))
  {
    JoinTail(texts, k, ",\n");
  }

  /** An object entry line followed by `after`, regrouped at the key. */
  lemma EntryRegroup(next: string, key: string, p: string, after: string)
    ensures next + "\"" + key + "\" : " + p + after == (next + "\"") + (key + ("\" : " + (p + after)))
  {
  }

  // ---------------------------------------------------------------------
  // The round trip.
  // ---------------------------------------------------------------------

  /** `v` prints at `level` to text that reads back as `v`, whatever may
      follow it. */
  ghost predicate ReadsBack(v: Json, indent: string, level: nat, host: Host, numberValue: string -> Option<real>) {
    forall r {:trigger ReadValue(PrettyPrint(v, indent, level, host) + r, indent, level, numberValue)} :: Follows(r) ==>
      ReadValue(PrettyPrint(v, indent, level, host) + r, indent, level, numberValue) == Some((v, r))
  }

  /** Every element of `items` reads back at `level`. */
  ghost predicate ItemsReadBack(items: seq<Json>, indent: string, level: nat, host: Host, numberValue: string -> Option<real>) {
    forall i :: 0 <= i < |items| ==> ReadsBack(items[i], indent, level, host, numberValue)
  }

  /** Every value of `fields` reads back at `level`. */
  ghost predicate FieldsReadBack(fields: map<string, Json>, indent: string, level: nat, host: Host, numberValue: string -> Option<real>) {
    forall key :: key in fields ==> ReadsBack(fields[key], indent, level, host, numberValue)
  }

  lemma UseItems(items: seq<Json>, i: nat, r: string, indent: string, level: nat, host: Host, numberValue: string -> Option<real>)
    requires ItemsReadBack(items, indent, level, host, numberValue)
    requires i < |items| && |r| > 0 && (r[0] == ',' || r[0] == '\n')
    ensures ReadValue(PrettyPrint(items[i], indent, level, host) + r, indent, level, numberValue) == Some((items[i], r))
  {
  }

  lemma UseFields(fields: map<string, Json>, key: string, r: string, indent: string, level: nat, host: Host, numberValue: string -> Option<real>)
    requires FieldsReadBack(fields, indent, level, host, numberValue)
    requires key in fields && |r| > 0 && (r[0] == ',' || r[0] == '\n')
    ensures ReadValue(PrettyPrint(fields[key], indent, level, host) + r, indent, level, numberValue) == Some((fields[key], r))
  {
  }

  /** Reading back the elements of a printed array, from element `k` on,
      given that each element reads back. */
  lemma {:induction false} ReadItemsPrinted(items: seq<Json>, k: nat, indent: string, level: nat, host: Host,
                                            numberValue: string -> Option<real>, rest: string)
    requires k < |items|
    requires ItemsReadBack(items, indent, level + 1, host, numberValue)
    ensures ReadItems(Join(ItemTexts(Array(items), indent, level, host)[k..], ",\n") + (Closing(indent, level, "]") + rest),
                      indent, level, numberValue) == Some((items[k..], rest))
    decreases |items| - k
  {
    var texts := ItemTexts(Array(items), indent, level, host);
    var next := NextIndent(indent, level);
    var p := PrettyPrint(items[k], indent, level + 1, host);
    var after := Closing(indent, level, "]") + rest;
    var s := Join(texts[k..], ",\n") + after;
    assert texts[k] == next + p;
    if k + 1 == |items| {
      JoinLast(texts, k, after);
      Assoc(next, p, after);
      assert after[0] == '\n';
      UseItems(items, k, after, indent, level + 1, host, numberValue);
      ReadItemsLast(p + after, indent, level, numberValue, items[k], rest);
      SliceCons(items, k);
      assert ReadItems(s, indent, level, numberValue) == Some(([items[k]], rest));
    } else {
      var w := Join(texts[k + 1..], ",\n") + after;
      JoinMore(texts, k, after);
      Assoc(next, p, ",\n" + w);
      assert (",\n" + w)[0] == ',';
      UseItems(items, k, ",\n" + w, indent, level + 1, host, numberValue);
      ReadItemsMore(p + (",\n" + w), indent, level, numberValue, items[k], w);
      ReadItemsPrinted(items, k + 1, indent, level, host, numberValue, rest);
      assert ReadItems(w, indent, level, numberValue) == Some((items[k + 1..], rest));
      SliceCons(items, k);
      assert ReadItems(s, indent, level, numberValue) == Some(([items[k]] + items[k + 1..], rest));
    }
  }

  /** The map the reader builds from the keys `ks`, later keys winning. */
  function MapOf(ks: seq<string>, fields: map<string, Json>): (r: map<string, Json>)
    requires forall i :: 0 <= i < |ks| ==> ks[i] in fields
    ensures forall k :: k in r <==> k in ks
    ensures forall k :: k in r ==> r[k] == fields[k]
    decreases |ks|
  {
    if |ks| == 0 then map[] else map[ks[0] := fields[ks[0]]] + MapOf(ks[1..], fields)
  }

  lemma MapOfEnumeration(ks: seq<string>, fields: map<string, Json>)
    requires Enumerates(ks, fields)
    ensures MapOf(ks, fields) == fields
  {
    var r := MapOf(ks, fields);
    assert r.Keys == fields.Keys;
  }

  /** The last entry line of a printed object reads back. */
  lemma EntryLastStep(fields: map<string, Json>, k: nat, indent: string, level: nat, host: Host,
                      numberValue: string -> Option<real>, rest: string)
    requires k + 1 == |ObjectKeys(fields, host)|
    requires forall key :: key in fields ==> '"' !in key
    requires FieldsReadBack(fields, indent, level + 1, host, numberValue)
    ensures ReadEntries(Join(EntryTexts(Object(fields), indent, level, host)[k..], ",\n") + (Closing(indent, level, "}") + rest),
                        indent, level, numberValue)
         == Some((MapOf(ObjectKeys(fields, host)[k..], fields), rest))
  {
    var ks := ObjectKeys(fields, host);
    var texts := EntryTexts(Object(fields), indent, level, host);
    var next := NextIndent(indent, level);
    var key := ks[k];
    var p := PrettyPrint(fields[key], indent, level + 1, host);
    var after := Closing(indent, level, "}") + rest;
    assert texts[k] == next + "\"" + key + "\" : " + p;
    SliceCons(ks, k);
    JoinLast(texts, k, after);
    EntryRegroup(next, key, p, after);
    assert after[0] == '\n';
    UseFields(fields, key, after, indent, level + 1, host, numberValue);
    ReadEntriesLast(key, p + after, indent, level, numberValue, fields[key], rest);
    assert MapOf(ks[k..], fields) == map[key := fields[key]];
  }

  /** An entry line of a printed object with more lines after it: the
      reader takes its key and value and goes on with the next line. */
  lemma EntryMoreShape(fields: map<string, Json>, k: nat, indent: string, level: nat, host: Host,
                       numberValue: string -> Option<real>, rest: string)
    requires k + 1 < |ObjectKeys(fields, host)|
    requires forall key :: key in fields ==> '"' !in key
    requires FieldsReadBack(fields, indent, level + 1, host, numberValue)
    ensures ReadEntries(Join(EntryTexts(Object(fields), indent, level, host)[k..], ",\n") + (Closing(indent, level, "}") + rest),
                        indent, level, numberValue)
         == (match ReadEntries(Join(EntryTexts(Object(fields), indent, level, host)[k + 1..], ",\n") + (Closing(indent, level, "}") + rest),
                               indent, level, numberValue)
             case None => None
             case Some(q) => Some((map[ObjectKeys(fields, host)[k] := fields[ObjectKeys(fields, host)[k]]] + q.0, q.1)))
  {
    var ks := ObjectKeys(fields, host);
    var texts := EntryTexts(Object(fields), indent, level, host);
    var next := NextIndent(indent, level);
    var key := ks[k];
    var p := PrettyPrint(fields[key], indent, level + 1, host);
    var after := Closing(indent, level, "}") + rest;
    assert texts[k] == next + "\"" + key + "\" : " + p;
    var w := Join(texts[k + 1..], ",\n") + after;
    JoinMore(texts, k, after);
    EntryRegroup(next, key, p, ",\n" + w);
    assert (",\n" + w)[0] == ',';
    UseFields(fields, key, ",\n" + w, indent, level + 1, host, numberValue);
    ReadEntriesMore(key, p + (",\n" + w), indent, level, numberValue, fields[key], w);
  }

  /** An entry line of a printed object with more lines after it reads
      back, given that the lines after it do. */
  lemma EntryMoreStep(fields: map<string, Json>, k: nat, indent: string, level: nat, host: Host,
                      numberValue: string -> Option<real>, rest: string)
    requires k + 1 < |ObjectKeys(fields, host)|
    requires forall key :: key in fields ==> '"' !in key
    requires FieldsReadBack(fields, indent, level + 1, host, numberValue)
    requires ReadEntries(Join(EntryTexts(Object(fields), indent, level, host)[k + 1..], ",\n") + (Closing(indent, level, "}") + rest),
                         indent, level, numberValue)
          == Some((MapOf(ObjectKeys(fields, host)[k + 1..], fields), rest))
    ensures ReadEntries(Join(EntryTexts(Object(fields), indent, level, host)[k..], ",\n") + (Closing(indent, level, "}") + rest),
                        indent, level, numberValue)
         == Some((MapOf(ObjectKeys(fields, host)[k..], fields), rest))
  {
    var ks := ObjectKeys(fields, host);
    EntryMoreShape(fields, k, indent, level, host, numberValue, rest);
    SliceCons(ks, k);
    assert ks[k..][1..] == ks[k + 1..];
    assert MapOf(ks[k..], fields) == map[ks[k] := fields[ks[k]]] + MapOf(ks[k + 1..], fields);
  }

  /** Reading back the entries of a printed object, from entry `k` on,
      given that each value reads back. */
  lemma {:induction false} ReadEntriesPrinted(fields: map<string, Json>, k: nat, indent: string, level: nat, host: Host,
                                              numberValue: string -> Option<real>, rest: string)
    requires k < |ObjectKeys(fields, host)|
    requires forall key :: key in fields ==> '"' !in key
    requires FieldsReadBack(fields, indent, level + 1, host, numberValue)
    ensures ReadEntries(Join(EntryTexts(Object(fields), indent, level, host)[k..], ",\n") + (Closing(indent, level, "}") + rest),
                        indent, level, numberValue)
         == Some((MapOf(ObjectKeys(fields, host)[k..], fields), rest))
    decreases |ObjectKeys(fields, host)| - k
  {
    if k + 1 == |ObjectKeys(fields, host)| {
      EntryLastStep(fields, k, indent, level, host, numberValue, rest);
    } else {
      ReadEntriesPrinted(fields, k + 1, indent, level, host, numberValue, rest);
      EntryMoreStep(fields, k, indent, level, host, numberValue, rest);
    }
  }

  /** A printed array reads back, given that its elements do. */
  lemma ReadPrintedArray(items: seq<Json>, indent: string, level: nat, host: Host,
                         numberValue: string -> Option<real>, rest: string)
    requires '\n' !in indent
    requires ItemsReadBack(items, indent, level + 1, host, numberValue)
    ensures ReadValue(PrettyPrint(Array(items), indent, level, host) + rest, indent, level, numberValue) == Some((Array(items), rest))
  {
    var texts := ItemTexts(Array(items), indent, level, host);
    var after := Closing(indent, level, "]") + rest;
    BlockSplit("[", texts, indent, level, "]", rest);
    var t := Join(texts, ",\n") + after;
    assert PrettyPrint(Array(items), indent, level, host) + rest == "[" + ("\n" + t);
    if |items| == 0 {
      assert t == after;
      ReadOpenEmpty("[", "]", indent, level, numberValue, rest, Array([]));
    } else {
      NextIndentShape(indent, level);
      ReadItemsPrinted(items, 0, indent, level, host, numberValue, rest);
      assert texts[0..] == texts && items[0..] == items;
      assert texts[0] == NextIndent(indent, level) + PrettyPrint(items[0], indent, level + 1, host);
      JoinStart(texts, ",\n", after);
      ReadArrayOpen(t, indent, level, numberValue, items, rest);
    }
  }

  /** A printed object reads back, given that its values do and the host
      enumerates its keys. */
  lemma ReadPrintedObject(fields: map<string, Json>, indent: string, level: nat, host: Host,
                          numberValue: string -> Option<real>, rest: string)
    requires '\n' !in indent
    requires Enumerates(host.keyOrder(fields), fields)
    requires forall key :: key in fields ==> '"' !in key
    requires FieldsReadBack(fields, indent, level + 1, host, numberValue)
    ensures ReadValue(PrettyPrint(Object(fields), indent, level, host) + rest, indent, level, numberValue) == Some((Object(fields), rest))
  {
    var ks := ObjectKeys(fields, host);
    assert ks == host.keyOrder(fields);
    var texts := EntryTexts(Object(fields), indent, level, host);
    var after := Closing(indent, level, "}") + rest;
    BlockSplit("{", texts, indent, level, "}", rest);
    var t := Join(texts, ",\n") + after;
    assert PrettyPrint(Object(fields), indent, level, host) + rest == "{" + ("\n" + t);
    if |ks| == 0 {
      assert fields.Keys == {};
      assert t == after;
      ReadOpenEmpty("{", "}", indent, level, numberValue, rest, Object(map[]));
    } else {
      NextIndentShape(indent, level);
      ReadEntriesPrinted(fields, 0, indent, level, host, numberValue, rest);
      assert texts[0..] == texts && ks[0..] == ks;
      MapOfEnumeration(ks, fields);
      assert texts[0] == NextIndent(indent, level) + "\"" + ks[0] + "\" : " + PrettyPrint(fields[ks[0]], indent, level + 1, host);
      JoinStart(texts, ",\n", after);
      ReadObjectOpen(t, indent, level, numberValue, fields, rest);
    }
  }

  /** Printing a readable tree at any level and reading it back at the same
      level gives the tree and leaves whatever followed it. */
  lemma {:induction false} ReadPrinted(j: Json, indent: string, level: nat, host: Host,
                                       numberValue: string -> Option<real>, rest: string)
    requires Readable(j) && NumbersRead(j, host, numberValue) && EnumeratesKeys(host)
    requires '\n' !in indent && Follows(rest)
    ensures ReadValue(PrettyPrint(j, indent, level, host) + rest, indent, level, numberValue) == Some((j, rest))
    decreases j
  {
    match j
    case String(str) =>
      ReadQuoted(str, rest, indent, level, numberValue);
    case Array(items) =>
      forall i | 0 <= i < |items|
        ensures ReadsBack(items[i], indent, level + 1, host, numberValue)
      {
        forall r | Follows(r)
          ensures ReadValue(PrettyPrint(items[i], indent, level + 1, host) + r, indent, level + 1, numberValue) == Some((items[i], r))
        {
          ReadPrinted(items[i], indent, level + 1, host, numberValue, r);
        }
      }
      ReadPrintedArray(items, indent, level, host, numberValue, rest);
    case Object(fields) =>
      forall key | key in fields
        ensures ReadsBack(fields[key], indent, level + 1, host, numberValue)
      {
        forall r | Follows(r)
          ensures ReadValue(PrettyPrint(fields[key], indent, level + 1, host) + r, indent, level + 1, numberValue) == Some((fields[key], r))
        {
          ReadPrinted(fields[key], indent, level + 1, host, numberValue, r);
        }
      }
      assert Enumerates(host.keyOrder(fields), fields);
      ReadPrintedObject(fields, indent, level, host, numberValue, rest);
    case Number(x) =>
      ReadWord(host.numberText(x), rest, j, indent, level, numberValue);
    case Bool(b) =>
      ReadWord(if b then "true" else "false", rest, j, indent, level, numberValue);
    case Null =>
      ReadWord("null", rest, j, indent, level, numberValue);
  }

  /** `stringify` of a readable tree is defined and determines the tree:
      reading the text gives the tree back. */
  lemma StringifyRoundTrip(j: Json, indent: string, host: Host, numberValue: string -> Option<real>)
    requires Readable(j) && NumbersRead(j, host, numberValue) && EnumeratesKeys(host) && '\n' !in indent
    ensures Stringify(j, indent, host).Some?
    ensures Read(Stringify(j, indent, host).value, indent, numberValue) == Some(j)
  {
    ReadPrinted(j, indent, 0, host, numberValue, "");
    assert PrettyPrint(j, indent, 0, host) + "" == PrettyPrint(j, indent, 0, host);
  }

  /** So two readable trees with the same printed text are the same tree. */
  lemma StringifyInjective(a: Json, b: Json, indent: string, host: Host, numberValue: string -> Option<real>)
    requires Readable(a) && Readable(b) && NumbersRead(a, host, numberValue) && NumbersRead(b, host, numberValue)
    requires EnumeratesKeys(host) && '\n' !in indent
    requires Stringify(a, indent, host) == Stringify(b, indent, host)
    ensures a == b
  {
    StringifyRoundTrip(a, indent, host, numberValue);
    StringifyRoundTrip(b, indent, host, numberValue);
  }

  /** The keys of `s` in some order, each once. */
  ghost function SomeOrder(s: set<string>): (ks: seq<string>)
    ensures forall k :: k in s <==> k in ks
    ensures forall i, j :: 0 <= i < j < |ks| ==> ks[i] != ks[j]
    decreases s
  {
    if s == {} then []
    else
      var k :| k in s;
      [k] + SomeOrder(s - {k})
  }

  /** A host that renders every number as `1.5` and hands out dictionary
      keys in some order, each once. */
  ghost const ExampleHost: Host := Host((_: real) => "1.5", (m: map<string, Json>) => SomeOrder(m.Keys))

  const ExampleNumbers: string -> Option<real> := w => if w == "1.5" then Some(1.5) else None

  /** The round trip's conditions can all be met: with that host, an object
      holding a string and the number 1.5 prints to text that reads back as
      the object. */
  lemma RoundTripExample()
    ensures EnumeratesKeys(ExampleHost)
    ensures var j := Object(map["a" := Number(1.5), "b" := Array([String("c")])]);
      Read(Stringify(j, "  ", ExampleHost).value, "  ", ExampleNumbers) == Some(j)
  {
    forall m: map<string, Json>
      ensures Enumerates(ExampleHost.keyOrder(m), m)
    {
      assert ExampleHost.keyOrder(m) == SomeOrder(m.Keys);
    }
    var j := Object(map["a" := Number(1.5), "b" := Array([String("c")])]);
    assert Readable(j) && NumbersRead(j, ExampleHost, ExampleNumbers) by {
      assert ExampleHost.numberText(1.5) == "1.5";
      assert Readable(j.fields["b"]) && NumbersRead(j.fields["b"], ExampleHost, ExampleNumbers);
    }
    StringifyRoundTrip(j, "  ", ExampleHost, ExampleNumbers);
  }

  /** Without escaping, a quote inside a string makes two different trees
      print the same text, so the quote-free condition cannot be dropped. */
  lemma QuotesCollide(host: Host)
    ensures PrettyPrint(Array([String("a\",\n  \"b")]), "  ", 0, host)
         == PrettyPrint(Array([String("a"), String("b")]), "  ", 0, host)
  {
    var one := Array([String("a\",\n  \"b")]);
    var two := Array([String("a"), String("b")]);
    assert CurrentIndent("  ", 0) == "";
    assert NextIndent("  ", 0) == "  ";
    assert ItemTexts(one, "  ", 0, host)[0] == "  \"a\",\n  \"b\"";
    assert ItemTexts(two, "  ", 0, host)[0] == "  \"a\"";
    assert ItemTexts(two, "  ", 0, host)[1] == "  \"b\"";
    assert Join(ItemTexts(one, "  ", 0, host), ",\n") == "  \"a\",\n  \"b\"";
    assert Join(ItemTexts(two, "  ", 0, host), ",\n") == "  \"a\",\n  \"b\"";
  }
}

=== FILE: response.dfy ===
/** `Response.init(json:)` and `Response.Metadata.init(metadata:)`: the
    `{ "meta": ..., "data": ... }` envelope every endpoint answers with. The
    source force-unwraps each metadata field and traps when one is missing;
    here that trap is an explicit failure naming the field. */
module Envelope {
  import opened Wrappers
  import opened JsonValue
  import Classification

  /** `Response.Metadata`. The timestamp is the seconds-since-1970 number the
      source hands to `Date(timeIntervalSince1970:)`. */
  datatype Metadata = Metadata(json: Json, statusCode: int, timestamp: real, message: string, methodId: int)

  /** `Response`: the metadata record and the untouched `data` sub-tree. */
  datatype Response = Response(metadata: Metadata, data: Json)

  /** The four required metadata fields, in the order they are read. */
  datatype Field = Status | Timestamp | Message | MethodId

  function FieldName(f: Field): string {
    match f
    case Status => "status"
    case Timestamp => "timestamp"
    case Message => "message"
    case MethodId => "method_id"
  }

  function Order(f: Field): nat {
    match f
    case Status => 0
    case Timestamp => 1
    case Message => 2
    case MethodId => 3
  }

  /** Why decoding stops: a force-unwrapped accessor found the field absent
      or of another case, or `Int(_:)` met a number outside 64 bits. */
  datatype Trap = Missing(field: Field) | Overflow(field: Field)

  /** The field is present with the case its accessor needs, and an integer
      field truncates into range. */
  predicate FieldReadable(meta: Json, f: Field) {
    var v := Key(meta, FieldName(f));
    match f
    case Status => v.Number? && InIntRange(Trunc(v.num))
    case Timestamp => v.Number?
    case Message => v.String?
    case MethodId => v.Number? && InIntRange(Trunc(v.num))
  }

  /** `meta[name].integer!` */
  function IntegerField(meta: Json, f: Field): (r: Result<int, Trap>)
    requires f == Status || f == MethodId
    ensures r.Success? <==> FieldReadable(meta, f)
    ensures r.Success? ==>
      IntegerDefined(Key(meta, FieldName(f))) && AsInteger(Key(meta, FieldName(f))) == Some(r.value)
    ensures r.Failure? ==> r.error.field == f
    ensures r.Failure? ==> (r.error.Overflow? <==> AsDouble(Key(meta, FieldName(f))).Some?)
  {
    var v := Key(meta, FieldName(f));
    if !v.Number? then Failure(Missing(f))
    else if !InIntRange(Trunc(v.num)) then Failure(Overflow(f))
    else Success(AsInteger(v).value)
  }

  /** `Metadata(metadata:)`: the fields are read in order and the first one
      that cannot be read is reported. */
  function DecodeMetadata(meta: Json): (r: Result<Metadata, Trap>)
    ensures r.Success? <==> forall f :: FieldReadable(meta, f)
    ensures r.Success? ==> r.value.json == meta
    ensures r.Success? ==> FieldReadable(meta, Status) && AsInteger(Key(meta, "status")) == Some(r.value.statusCode)
    ensures r.Success? ==> AsDouble(Key(meta, "timestamp")) == Some(r.value.timestamp)
    ensures r.Success? ==> AsString(Key(meta, "message")) == Some(r.value.message)
    ensures r.Success? ==> FieldReadable(meta, MethodId) && AsInteger(Key(meta, "method_id")) == Some(r.value.methodId)
    ensures r.Failure? ==> !FieldReadable(meta, r.error.field)
    ensures r.Failure? ==> forall f :: Order(f) < Order(r.error.field) ==> FieldReadable(meta, f)
  {
    var status := IntegerField(meta, Status);
    if status.Failure? then Failure(status.error)
    else
      match AsDouble(Key(meta, "timestamp"))
      case None =>
        assert !FieldReadable(meta, Timestamp);
        Failure(Missing(Timestamp))
      case Some(timestamp) =>
        match AsString(Key(meta, "message"))
        case None =>
          assert !FieldReadable(meta, Message);
          Failure(Missing(Message))
        case Some(message) =>
          var methodId := IntegerField(meta, MethodId);
          if methodId.Failure? then Failure(methodId.error)
          else Success(Metadata(meta, status.value, timestamp, message, methodId.value))
  }

  /** `Response(json:)`: `meta` and `data` are looked up with the keyed
      subscript, so a root that is not an object, or lacks either key,
      passes the sentinel on. */
  function DecodeResponse(root: Json): (r: Result<Response, Trap>)
    ensures r.Success? <==> DecodeMetadata(Key(root, "meta")).Success?
    ensures r.Success? ==> r.value.metadata.json == Key(root, "meta") && r.value.data == Key(root, "data")
    ensures r.Success? ==> r.value.metadata == DecodeMetadata(Key(root, "meta")).value
    ensures r.Failure? ==> r.error == DecodeMetadata(Key(root, "meta")).error
  {
    match DecodeMetadata(Key(root, "meta"))
    case Failure(e) => Failure(e)
    case Success(m) => Success(Response(m, Key(root, "data")))
  }

  /** `Response(json: JSON(data))` on a body received from the server. */
  function DecodeBody(body: seq<Classification.byte>, decode: Classification.Decoder): (r: Result<Response, Trap>)
    ensures decode(body).None? ==> r == Failure(Missing(Status))
  {
    DecodeResponse(Classification.Classify(Classification.NData(body), decode))
  }

  // ---------------------------------------------------------------------
  // The envelope a well-behaved server sends, as the partner of decoding.
  // ---------------------------------------------------------------------

  /** A `meta` object carrying exactly the four fields. */
  function MetadataJson(statusCode: int, timestamp: real, message: string, methodId: int): (j: Json)
    ensures AsObject(j).Some? && AsObject(j).value.Keys == {"status", "timestamp", "message", "method_id"}
  {
    Object(map["status" := Number(statusCode as real), "timestamp" := Number(timestamp),
               "message" := String(message), "method_id" := Number(methodId as real)])
  }

  /** The root object of an envelope. */
  function EnvelopeJson(meta: Json, data: Json): (j: Json)
    ensures Key(j, "meta") == meta && Key(j, "data") == data
  {
    Object(map["meta" := meta, "data" := data])
  }

  lemma TruncOfInt(n: int)
    ensures Trunc(n as real) == n
  {
  }

  /** Encoding a metadata record into an envelope and decoding it gives the
      record and the payload back. */
  lemma DecodeEncode(statusCode: int, timestamp: real, message: string, methodId: int, data: Json)
    requires InIntRange(statusCode) && InIntRange(methodId)
    ensures var meta := MetadataJson(statusCode, timestamp, message, methodId);
      DecodeResponse(EnvelopeJson(meta, data))
        == Success(Response(Metadata(meta, statusCode, timestamp, message, methodId), data))
  {
    TruncOfInt(statusCode);
    TruncOfInt(methodId);
  }

  /** Every decoded response is the decoding of the envelope re-assembled
      from it: decoding reads nothing of the root but `meta` and `data`. */
  lemma EncodeDecode(root: Json)
    requires DecodeResponse(root).Success?
    ensures var r := DecodeResponse(root).value;
      DecodeResponse(EnvelopeJson(r.metadata.json, r.data)) == Success(r)
  {
  }

  /** A root that is not an object, or has no `meta`, cannot be decoded, and
      the first field read is the one reported. */
  lemma NoMetaFails(root: Json)
    requires !root.Object? || "meta" !in root.fields
    ensures DecodeResponse(root) == Failure(Missing(Status))
  {
  }

  /** Metadata without a timestamp is refused, whatever else it holds. */
  lemma MissingTimestampFails(root: Json)
    requires Key(Key(root, "meta"), "timestamp") == Invalid
    ensures DecodeResponse(root).Failure?
    ensures FieldReadable(Key(root, "meta"), Status) ==> DecodeResponse(root).error == Missing(Timestamp)
  {
  }

  /** The well-formed envelope from the service's documentation. */
  lemma ExampleEnvelope()
    ensures var root := EnvelopeJson(MetadataJson(200, 1500000000.0, "OK", 7), Object(map["x" := Number(1.0)]));
      var r := DecodeResponse(root);
      r.Success? && r.value.metadata.statusCode == 200 && r.value.metadata.timestamp == 1500000000.0
      && r.value.metadata.message == "OK" && r.value.metadata.methodId == 7
      && AsInteger(Key(r.value.data, "x")) == Some(1)
  {
    DecodeEncode(200, 1500000000.0, "OK", 7, Object(map["x" := Number(1.0)]));
    TruncOfInt(1);
  }

  /** An envelope whose `meta` holds only a status is refused at the
      timestamp. */
  lemma ExampleStatusOnly()
    ensures DecodeResponse(EnvelopeJson(Object(map["status" := Number(200.0)]), Object(map[])))
      == Failure(Missing(Timestamp))
  {
    TruncOfInt(200);
  }
}

=== FILE: text.dfy ===
/** String helpers the printer is built from: Swift's `joined(separator:)`
    and the indentation it produces from a range of empty strings. */
module Text {

  /** `xs.joined(separator: sep)`: the pieces with `sep` between neighbours. */
  function Join(xs: seq<string>, sep: string): string
    decreases |xs|
  {
    if |xs| == 0 then ""
    else if |xs| == 1 then xs[0]
    else xs[0] + sep + Join(xs[1..], sep)
  }

  /** `s` ends with `suffix`. */
  predicate EndsWith(s: string, suffix: string) {
    |suffix| <= |s| && s[|s| - |suffix|..] == suffix
  }

  /** `s` written `n` times in a row. */
  function Repeat(s: string, n: nat): string
    decreases n
  {
    if n == 0 then "" else s + Repeat(s, n - 1)
  }

  /** `n` empty strings joined by `sep` are `sep` written `n - 1` times. */
  lemma {:induction false} JoinEmpties(n: nat, sep: string)
    requires 0 < n
    ensures Join(seq(n, _ => ""), sep) == Repeat(sep, n - 1)
    decreases n
  {
    var xs := seq(n, _ => "");
    if n > 1 {
      assert xs[1..] == seq(n - 1, _ => "");
      JoinEmpties(n - 1, sep);
      assert Join(xs, sep) == "" + sep + Repeat(sep, n - 2);
    }
  }

  /** Every character of `Repeat(s, n)` is a character of `s`. */
  lemma {:induction false} RepeatChars(s: string, n: nat, c: char)
    requires c !in s
    ensures c !in Repeat(s, n)
    decreases n
  {
    if n > 0 {
      RepeatChars(s, n - 1, c);
    }
  }
}

=== FILE: wrappers.dfy ===
/** Option and Result, the failure-carrying shapes the model uses in place of
    Swift's optionals, thrown errors and traps. */
module Wrappers {

  /** Swift's `T?`: a present value or nothing. */
  datatype Option<+T> = None | Some(value: T)

  /** The outcome of an operation that the source either completes or aborts
      (by throwing or by trapping on a force-unwrap). */
  datatype Result<+T, +E> = Success(value: T) | Failure(error: E)
}
